=== FILE: README.md ===
# A verified model of the vibebet-pro-analytics tip logic

vibebet-pro-analytics is a betting-tips site. An operator publishes tips
(a match, a pick, odds, a stake and a pricing tier from Free to 100 PLN),
settles them as Won, Lost or Void, and grants users day passes to paid
tiers. Visitors see free tips, and paid tips they have bought, in full;
other paid tips sit behind a locked overlay. This project models the parts
of the site that compute something, as pure Dafny functions over immutable
records, and proves what they promise:

- **Match aggregation** (`grouping.dfy`, with `buckets.dfy`, `sorting.dfy`,
  `text.dfy`, `calendar.dfy`, `tiers.dfy`). `groupTipsByMatch` groups tips by
  a `home-away-day` key. A group of one tip passes through unchanged. A
  larger group becomes one bet-builder record. That record:
  - flattens the legs of every pick;
  - multiplies the odds;
  - joins the analyses;
  - copies every other field from the first tip of the highest tier.

  The output is sorted newest match first. `scenarios.dfy` works through
  what merging does to a pair of tips.
- **Settlement statistics** (`stats.dfy`). The four figures of the public
  statistics panel: win rate, wins, losses and profit.
- **The operator page** (`admin.dfy`):
  - the per-tier results table;
  - settling, unsettling and deleting a tip;
  - the pending list;
  - the list of the ten latest settlements;
  - the row a new tip is stored as.
- **Day passes** (`access.dfy`):
  - expiry at 23:59:59 local time;
  - the grant upsert keyed by user and tier;
  - revocation;
  - the strict expiry test;
  - the user search;
  - grouping grants by user.
- **The paywall** (`paywall.dfy`):
  - the unlock rule;
  - the tier filter;
  - what a tip card shows;
  - the wording of a tier's group card.
- **The pick editor** (`editor.dfy`). Loading a pick as a list of legs,
  adding, removing and changing legs, and saving them joined again.

Timestamps are integer milliseconds. The viewer's time zone is a fixed
offset in milliseconds. Odds and stakes are exact reals. A pricing tier
is its label string. The database column holding it is an enumeration of
the six catalogue labels, but the model also represents other labels.
The database tables are sequences of records.

Where the code and its own comments disagree, the model follows the code:

- The comment at `src/lib/groupTipsByMatch.ts:5` says the odds of a group
  are summed. The code multiplies them (`:46`), and so does `CombinedOdds`.
- The comments at `src/lib/groupTipsByMatch.ts:54` and `:61` say the first
  tip's id is kept. The spread at `:56` copies the id, like every other
  field, from the highest-tier tip. `Composite` does the same.

## Model

| member | source | states |
|---|---|---|
| MatchGrouping.KeyCollision | src/lib/groupTipsByMatch.ts:12-13 | the key is a plain `-`-joined string, so "A-B" v "C" and "A" v "B-C" on the same day share a key and are merged |
| MatchGrouping.MatchKey | src/lib/groupTipsByMatch.ts:12-13 | the key starts with the home team and ends with the label of the local match day, which holds no "-" |
| MatchGrouping.SameFixtureKey | src/lib/groupTipsByMatch.ts:12-13 | for one fixture, two tips share a key exactly when they fall on the same local day, whatever their times |
| Calendar.DayLabel | src/lib/groupTipsByMatch.ts:12 | the label of a local day is non-empty and holds no "-", negative days included |
| Calendar.DayLabelInjective | src/lib/groupTipsByMatch.ts:12 | different local days get different labels, as `toDateString` gives different dates different strings |
| Calendar.SameDayWindow | src/lib/groupTipsByMatch.ts:12 | two timestamps share a local calendar day exactly when the second lies in the 24-hour window starting at the first one's local midnight |
| Buckets.Find | src/lib/groupTipsByMatch.ts:15 | the map lookup finds a key exactly when it is present, at a position holding that key |
| Buckets.Group | src/lib/groupTipsByMatch.ts:11-18 | the buckets partition the input: keys are distinct, every tip's key is among them, and each bucket is non-empty and holds exactly the tips with its key, in input order |
| Buckets.GroupKeysInOrder | src/lib/groupTipsByMatch.ts:11-18 | the buckets come in order of first occurrence: wherever a key occurs in the input, every key listed before it has already occurred |
| Buckets.ItemInExactlyOneGroup | src/lib/groupTipsByMatch.ts:11-18 | every tip lies in exactly one bucket, the one of its own key |
| Buckets.GroupDistinct | src/lib/groupTipsByMatch.ts:11-18 | tips with pairwise distinct keys each get a bucket of their own, in input order |
| Buckets.GroupPair | src/lib/groupTipsByMatch.ts:11-18 | two tips with one key form a single bucket holding both, in input order |
| MatchGrouping.OutputCountIsDistinctKeys | src/lib/groupTipsByMatch.ts:11-66 | the output has exactly as many records as there are distinct match keys among the input tips |
| MatchGrouping.SoleTipPassesThrough | src/lib/groupTipsByMatch.ts:23-25 | a tip whose key no other tip shares appears in the output unchanged, with its untrimmed pick and its own bet-builder flag |
| MatchGrouping.Legs | src/lib/groupTipsByMatch.ts:41 | the legs cut from one pick are non-empty and carry no surrounding whitespace |
| MatchGrouping.AllLegs | src/lib/groupTipsByMatch.ts:38-43 | no leg of a composite is empty or untrimmed, so " \|  \| " never appears in a merged pick |
| MatchGrouping.AllLegsConcat | src/lib/groupTipsByMatch.ts:39-42 | the legs of a group are those of its tips, tip after tip in input order |
| MatchGrouping.CombinedOddsConcat | src/lib/groupTipsByMatch.ts:46 | the combined odds are multiplicative: the odds of two runs of tips combine to the product of their odds |
| MatchGrouping.CombinedOddsPositive | src/lib/groupTipsByMatch.ts:46 | positive odds combine to positive odds |
| MatchGrouping.CombinedOddsDominates | src/lib/groupTipsByMatch.ts:46 | with every price at least 1, the combined odds are at least 1 and at least each constituent's odds |
| MatchGrouping.CombinedOddsSingle | src/lib/groupTipsByMatch.ts:46 | the seed 1 of the product is neutral: one tip's combined odds are its own odds |
| MatchGrouping.CombinedOddsZero | src/lib/groupTipsByMatch.ts:46 | a single zero price anywhere in a group makes the combined odds zero |
| MatchGrouping.Analyses | src/lib/groupTipsByMatch.ts:49-51 | only present, non-empty analyses are kept, at most one per tip |
| MatchGrouping.AnalysesEmpty | src/lib/groupTipsByMatch.ts:49-51 | no analysis survives the filter exactly when every tip's analysis is null or empty |
| MatchGrouping.CombinedAnalysis | src/lib/groupTipsByMatch.ts:49-60 | the merged analysis is null exactly when no tip has a non-empty analysis, and otherwise the surviving analyses joined by the separator |
| MatchGrouping.FirstMax | src/lib/groupTipsByMatch.ts:31-35 | the chosen position holds the largest rank and every earlier position a strictly smaller one, which is what the stable sort puts first |
| MatchGrouping.BaseIndex | src/lib/groupTipsByMatch.ts:28-35 | the base tip has the highest tier rank in the group, and no earlier tip has that rank |
| MatchGrouping.Composite | src/lib/groupTipsByMatch.ts:28-62 | the merged record takes id, tier and every other field from the first tip of highest rank; its pick is the join of all legs, its odds the product of the odds, its analysis the joined analyses, and its bet-builder flag is set |
| MatchGrouping.MergeGroup | src/lib/groupTipsByMatch.ts:23-64 | a bucket of one tip yields that tip unchanged; a larger bucket yields a bet builder with every leg, the product of the odds, and the id and tier of one of its tips |
| MatchGrouping.MergeAll | src/lib/groupTipsByMatch.ts:22-66 | one record per bucket, in bucket order |
| MatchGrouping.MergeKeepsKey | src/lib/groupTipsByMatch.ts:55-56 | a merged record keeps the match key of its bucket, because teams and match date come from the base tip |
| MatchGrouping.MergedKeysDistinct | src/lib/groupTipsByMatch.ts:8-66 | the records produced carry pairwise distinct match keys |
| MatchGrouping.GroupTipsByMatch | src/lib/groupTipsByMatch.ts:69-71 | the output is sorted by match date, newest first, and is a rearrangement of the merged records, one per distinct key |
| MatchGrouping.GroupingDistinctSorted | src/lib/groupTipsByMatch.ts:20-71 | input already sorted newest first with pairwise distinct keys comes back unchanged |
| MatchGrouping.GroupingIdempotent | src/lib/groupTipsByMatch.ts:7-72 | grouping the output of a grouping changes nothing |
| Sorting.Insert | src/lib/groupTipsByMatch.ts:69-71 | inserting into a list sorted newest first keeps it sorted and adds one element |
| Sorting.InsertPermutes | src/lib/groupTipsByMatch.ts:69-71 | inserting adds exactly the new element, as a multiset |
| Sorting.SortDesc | src/lib/groupTipsByMatch.ts:69-71 | the sorted list is in descending key order and as long as the input |
| Sorting.SortPermutes | src/lib/groupTipsByMatch.ts:69-71 | the sort is a permutation: same multiset, same members |
| Sorting.SortedDescOrdered | src/lib/groupTipsByMatch.ts:69-71 | a list sorted neighbour by neighbour is sorted between any two positions |
| Sorting.SortStable | src/lib/groupTipsByMatch.ts:69-71 | the sort is stable: the elements sharing any one key keep their input order |
| Sorting.SortSortedIsIdentity | src/lib/groupTipsByMatch.ts:69-71 | sorting an already sorted list changes nothing |
| Sorting.SortKeepsDistinct | src/lib/groupTipsByMatch.ts:69-71 | sorting keeps pairwise distinct images pairwise distinct |
| TierCatalog.IndexOf | src/lib/groupTipsByMatch.ts:32 | `indexOf` gives the first position of the label, or -1 exactly when it is absent |
| TierCatalog.Rank | src/lib/groupTipsByMatch.ts:28-32 | a tier's rank is its catalogue position; an unknown label ranks -1 |
| TierCatalog.RankOfCatalogue | src/lib/groupTipsByMatch.ts:28 | the catalogue labels are distinct, so each catalogue tier ranks at its own position |
| TierCatalog.UnknownRanksLowest | src/lib/groupTipsByMatch.ts:32 | an unknown label ranks below Free, and so below every catalogue tier |
| TierCatalog.Price | src/components/tips/TipCard.tsx:61-72 | the price is 0 for Free and for any label missing from the table, and between 10 and 100 for a paid catalogue tier |
| TierCatalog.PriceTable | src/components/tips/TipCard.tsx:61-68 | Free, 10, 20, 40, 75 and 100 PLN cost 0, 10, 20, 40, 75 and 100 zł |
| TierCatalog.PriceFollowsRank | src/components/tips/TipCard.tsx:61-68 | between catalogue tiers, a higher rank means a strictly higher price |
| TierCatalog.GrantableArePaid | src/components/admin/UserAccessManager.tsx:28 | the grantable tiers are the catalogue without Free, in catalogue order |
| Text.Trim | src/lib/groupTipsByMatch.ts:41 | the trimmed string has no whitespace at either end, and is empty exactly when the input is all whitespace |
| Text.TrimEmptyIffBlank | src/lib/groupTipsByMatch.ts:41 | trimming yields the empty string exactly when the input is all whitespace |
| Text.Split | src/lib/groupTipsByMatch.ts:41 | cutting at the separator always yields at least one piece |
| Text.JoinSplit | src/components/admin/TipEditDialog.tsx:53-85 | joining the pieces of a split with the separator restores the string |
| Text.SplitPiecesLackSeparator | src/lib/groupTipsByMatch.ts:41 | no piece of a split contains the separator |
| Text.SplitJoin | src/lib/groupTipsByMatch.ts:41-57 | splitting a join of bar-free pieces gives back exactly those pieces |
| Text.JoinConcat | src/lib/groupTipsByMatch.ts:57 | joining two non-empty lists one after the other puts exactly one separator between their joins |
| Text.SplitWithoutSeparator | src/components/admin/TipEditDialog.tsx:53 | a string without the separator splits into itself alone |
| Text.Lower | src/components/admin/UserAccessManager.tsx:154-155 | lower-casing keeps the length and lower-cases each character |
| PairMerging.PairPickFlattens | src/lib/groupTipsByMatch.ts:38-57 | merging two picks made of clean legs gives the first pick, one separator, then the second pick, and the legs of both in order |
| PairMerging.PairOdds | src/lib/groupTipsByMatch.ts:46 | the odds of a merged pair are the product of the two odds |
| PairMerging.PairBase | src/lib/groupTipsByMatch.ts:31-35 | the second tip of a pair is the base only when its tier ranks strictly higher; a tie keeps the first |
| PairMerging.PairKeepsFirst | src/lib/groupTipsByMatch.ts:31-56 | when the first tip ranks at least as high, the merged record has its id and tier |
| PairMerging.SameMatchOneRecord | src/lib/groupTipsByMatch.ts:11-71 | two tips on the same fixture and local day, at any times of that day, leave exactly one record, their composite |
| PairMerging.TwoSinglesMerge | src/lib/groupTipsByMatch.ts:7-72 | a 20 PLN single and a Free single on one match become one bet builder with both legs, the product of the odds, and the 20 PLN tip's id and tier |
| Statistics.WonLostWithinSettled | src/components/tips/StatsOverview.tsx:9-11 | wins plus losses never exceed the settled count, which counts Void tips too |
| Statistics.CountsVanish | src/components/tips/StatsOverview.tsx:9-11 | the settled count is zero exactly when every tip is Pending, and the won and lost counts are zero exactly when no tip is Won, respectively Lost |
| Statistics.WinRate | src/components/tips/StatsOverview.tsx:13-15 | the win rate lies in [0, 100], times the settled count it equals 100 times the wins, and it is 0 when nothing is settled |
| Statistics.ProfitIsWinningsLessLosses | src/components/tips/StatsOverview.tsx:18-22 | the left-fold profit equals the net winnings of the won tips less the stakes of the lost tips; Pending and Void tips add nothing |
| Statistics.ProfitConcat | src/components/tips/StatsOverview.tsx:18-22 | the profit of two lists run one after the other is the sum of their profits |
| Statistics.StatsOverview | src/components/tips/StatsOverview.tsx:9-22 | the panel shows the number of won tips and of lost tips, which together fit in the settled count; its rate is the win rate, in [0, 100] and 0 when nothing is settled; its profit is winnings less lost stakes |
| Statistics.OverviewRate | src/components/tips/StatsOverview.tsx:13-15 | with something settled, the panel's rate times the settled count is 100 times its won count |
| Statistics.PendingTipChangesNothing | src/components/tips/StatsOverview.tsx:9-22 | inserting a Pending tip anywhere leaves all four figures unchanged |
| Statistics.NothingSettledIsZero | src/components/tips/StatsOverview.tsx:9-22 | a list with no settled tip, the empty list included, shows rate 0, no wins, no losses and profit 0 |
| Statistics.LossBoundedByStake | src/components/tips/StatsOverview.tsx:18-22 | with odds of at least 1 and non-negative stakes, the profit is at least minus the stake on settled tips |
| Administration.Yield | src/pages/Admin.tsx:120 | the yield times a positive settled stake is 100 times the profit, and the yield is 0 when nothing positive was staked |
| Administration.TotalStakedByOutcome | src/pages/Admin.tsx:119 | the settled stake is the stake on won, lost and Void tips together, so a Void tip's stake counts towards the yield although it adds nothing to the profit |
| Administration.TierStatOf | src/pages/Admin.tsx:104-130 | a tier's row is computed over that tier's tips only: its total, wins and losses are their counts, its rate is their win rate, its profit is winnings less lost stakes, and its yield is the `Yield` of its profit over the settled stake, Void included, so it is 0 when nothing is staked |
| Administration.StatsFor | src/pages/Admin.tsx:103-131 | one row per listed tier, in the list's order |
| Administration.CalculateTierStats | src/pages/Admin.tsx:102-134 | exactly six rows, one per catalogue tier, Free to 100 PLN |
| Administration.TierRowsPartition | src/pages/Admin.tsx:103-104 | every tip of a catalogue tier is counted in exactly one row, so the row totals add up to the number of such tips |
| Administration.YieldAtLeastMinusHundred | src/pages/Admin.tsx:113-120 | with odds of at least 1 and non-negative stakes, no tier shows a yield below -100 % |
| Administration.Settle | src/pages/Admin.tsx:192-202 | the tip with the id becomes Won, Lost or Void with settlement time now; other fields and other rows are untouched; the lifecycle invariant is preserved |
| Administration.Unsettle | src/pages/Admin.tsx:216-224 | the tip with the id becomes Pending with no settlement time; other fields and other rows are untouched; the lifecycle invariant is preserved |
| Administration.UnsettleUndoesSettle | src/pages/Admin.tsx:192-224 | settling a pending tip and then unsettling it restores the list |
| Administration.ResettleOverrides | src/pages/Admin.tsx:192-202 | settling again replaces the earlier outcome and time |
| Administration.Delete | src/pages/Admin.tsx:175-180 | no row with the id remains, and the rest keep their order |
| Administration.DeleteKeepsOthers | src/pages/Admin.tsx:175-180 | every row with another id survives deletion |
| Administration.PendingTips | src/pages/Admin.tsx:236 | the pending list holds only Pending tips of the list, in order |
| Administration.PendingAndSettledPartition | src/pages/Admin.tsx:236-239 | every tip is either pending or settled: the two counts add up to the list length |
| Administration.SortedSettled | src/pages/Admin.tsx:238-240 | every settled tip appears exactly as often as in the list, as a permutation, latest settlement first |
| Administration.TopOfSorted | src/pages/Admin.tsx:238-241 | any prefix of the sorted settled tips holds settled tips of the list, still sorted |
| Administration.RecentSettled | src/pages/Admin.tsx:238-241 | at most ten tips, ten whenever that many are settled, all settled and from the list, latest settlement first, and as a multiset contained in the settled tips, so no row repeats more often than it is loaded |
| Administration.RecentAreLatest | src/pages/Admin.tsx:238-241 | a settled tip left off the list was settled no later than any tip on it |
| Tips.EmptyToNone | src/pages/Admin.tsx:150 | an empty analysis is stored as none and any other is stored as written; the edit dialog saves its analysis by the same rule |
| Tips.EmptyToNoneRoundTrip | src/components/admin/TipEditDialog.tsx:57-96 | showing a stored analysis in the field and saving it again keeps a present analysis and turns an empty one into none |
| Administration.CreateTip | src/pages/Admin.tsx:141-152 | a new tip has the given id and creation time, stake 10, today's match date, status Pending with no settlement time and no proof image, an analysis only when one was typed, and the form's teams, league, pick, odds, tier and bet-builder flag |
| Administration.CreatedTipIsPending | src/pages/Admin.tsx:141-152 | a created tip joins the end of the pending list and leaves the statistics unchanged |
| AccessGrants.GrantExpiry | src/components/admin/UserAccessManager.tsx:83-84 | the expiry is 23:59:59 on the local day of the grant, never on a later day, within a second before now at worst, and not before now outside the day's last second |
| AccessGrants.ExpiryIsStrict | src/components/admin/UserAccessManager.tsx:149-151 | a pass expiring exactly now is not yet expired; one millisecond later it is |
| AccessGrants.IsExpired | src/components/admin/UserAccessManager.tsx:149-151 | a pass has lapsed from the first millisecond after its expiry on, and not before |
| AccessGrants.PassLastsTheDay | src/components/admin/UserAccessManager.tsx:83-151 | a pass is valid at any later moment up to 23:59:59 of its day and lapsed on every later day |
| AccessGrants.LastSecondPassIsExpired | src/components/admin/UserAccessManager.tsx:83-84 | a pass granted after 23:59:59.000 is expired the moment it is granted |
| AccessGrants.GrantAccess | src/components/admin/UserAccessManager.tsx:73-116 | a grant without user or tier fails; with exactly one grant for the pair, only that row's expiry changes, its grantor becomes the current user and stays as it was when nobody is logged in (the undefined field is left out of the update), and every other field and row stays; otherwise one new row is appended |
| AccessGrants.GrantTakesEffect | src/components/admin/UserAccessManager.tsx:86-116 | after a successful grant the user holds a pass for the tier expiring at the end of the day |
| AccessGrants.GrantKeepsOnePerPair | src/components/admin/UserAccessManager.tsx:86-116 | a table with at most one grant per user and tier keeps that property |
| AccessGrants.GrantedRowsCurrent | src/components/admin/UserAccessManager.tsx:95-115 | after a grant every row of the pair carries the new expiry and, when someone is logged in, the new grantor; with nobody logged in every existing row keeps its grantor |
| AccessGrants.NoMatchWhenUnique | src/components/admin/UserAccessManager.tsx:87-95 | in a table with one grant per pair, a lookup that does not find exactly one row found none |
| AccessGrants.AtMostOneMatch | src/components/admin/UserAccessManager.tsx:87-92 | in a table with one grant per pair, the lookup finds at most one row |
| AccessGrants.RegrantSameDay | src/components/admin/UserAccessManager.tsx:82-104 | granting the same pass again on the same day leaves the table as it was |
| AccessGrants.Revoke | src/components/admin/UserAccessManager.tsx:132-137 | exactly the rows with the id are removed; every other row stays, in order |
| AccessGrants.FilterUsers | src/components/admin/UserAccessManager.tsx:153-156 | a user is kept exactly when the lower-cased email or name contains the lower-cased query; order is kept |
| AccessGrants.LowerIdempotent | src/components/admin/UserAccessManager.tsx:154-155 | lower-casing twice is lower-casing once |
| AccessGrants.SearchIgnoresCase | src/components/admin/UserAccessManager.tsx:153-156 | lower-casing the query does not change the search result |
| AccessGrants.EmptyQueryKeepsNamed | src/components/admin/UserAccessManager.tsx:153-156 | the empty query keeps exactly the users with an email or a name; a user with neither is never shown |
| AccessGrants.AccessByUserIsFilter | src/components/admin/UserAccessManager.tsx:159-165 | the grouping has a key for exactly the users with a grant, and each key's list is that user's grants in order |
| AccessGrants.AccessByUser | src/components/admin/UserAccessManager.tsx:159-165 | every grant is filed under its own user, and no user is listed with an empty list |
| AccessGrants.UsersWithAccess | src/components/admin/UserAccessManager.tsx:167 | the listed users keep the user list's order |
| AccessGrants.UsersWithAccessExact | src/components/admin/UserAccessManager.tsx:159-167 | a user is listed exactly when some grant names them |
| Paywall.UnlockGrowsWithPurchases | src/pages/Index.tsx:95-97 | an open tip stays open when more purchases are added |
| Paywall.IsUnlocked | src/pages/Index.tsx:95-97 | a tip is open exactly when it is Free or some purchase names its id; the visitor's role and tier grants play no part |
| Paywall.PageCard | src/pages/Index.tsx:200-203 | on the tips page a card is covered, and offers a buy button, exactly when its tip is locked, and shows a present analysis exactly when the tip is open |
| Paywall.FilterTips | src/pages/Index.tsx:91-93 | "all" shows every tip; any other selection shows exactly the tips of that tier, in order |
| Paywall.FilterTipsIdempotent | src/pages/Index.tsx:91-93 | selecting the same tier twice shows the same tips |
| Paywall.PriceBadge | src/components/tips/TipCard.tsx:150-158 | the badge reads "Darmowy" exactly on a Free tip |
| Paywall.Card | src/components/tips/TipCard.tsx:72-161 | the overlay shows exactly when the tip is locked and not Free; the buy button only on the overlay, with the tier's price; the analysis exactly when it is non-empty and the tip is open or Free; the proof exactly on a Won tip with a proof image |
| Paywall.FreeTipIsOpen | src/components/tips/TipCard.tsx:72-145 | on the tips page a Free tip is never covered and shows any analysis it has |
| Paywall.PaidTipBehindOverlay | src/components/tips/TipCard.tsx:78-141 | an unbought paid tip is covered, offered for its catalogue price of 10 to 100 zł, with its analysis hidden; a bought one is not covered |
| Paywall.UnknownTierOfferedFree | src/components/tips/TipCard.tsx:72-87 | an unbought tip whose tier is not in the price table is covered yet offered for 0 zł |
| Paywall.CountPhrase | src/components/tips/TierGroupCard.tsx:47 | "dostępny typ" exactly for 1, "dostępne typy" exactly for 2 to 4, "dostępnych typów" for everything else, 22 included |
| Paywall.BadgeText | src/components/tips/TierGroupCard.tsx:27-29 | the Free label reads "DARMOWE" and every other label is shown verbatim |
| PickEditor.ParsePicks | src/components/admin/TipEditDialog.tsx:53 | the loaded legs are never empty and are exactly the split of the pick, whether or not it holds a separator |
| PickEditor.AddPick | src/components/admin/TipEditDialog.tsx:62-64 | one empty leg is appended and the existing legs are unchanged |
| PickEditor.RemovePick | src/components/admin/TipEditDialog.tsx:66-70 | the leg at a valid index is removed unless it is the only one; the list never becomes empty |
| PickEditor.KeepOthers | src/components/admin/TipEditDialog.tsx:68 | filtering by index drops exactly the leg at that index, or nothing when the index is outside the list |
| PickEditor.UpdatePick | src/components/admin/TipEditDialog.tsx:72-76 | only the given leg changes and the length is kept |
| PickEditor.CombinedPick | src/components/admin/TipEditDialog.tsx:85 | the saved pick is empty exactly when no leg has non-whitespace content |
| PickEditor.SaveAfterLoadKeepsPick | src/components/admin/TipEditDialog.tsx:53-85 | loading a pick and saving it unedited stores the same string when every piece has content |
| PickEditor.BlankLegDropped | src/components/admin/TipEditDialog.tsx:85 | a blank leg adds nothing to the saved pick; the legs are joined untrimmed |
| PickEditor.AddThenSaveUnchanged | src/components/admin/TipEditDialog.tsx:62-85 | adding a leg and saving without typing into it stores the same pick |
| PickEditor.LoadAfterSave | src/components/admin/TipEditDialog.tsx:53-85 | saving bar-free legs and loading again gives exactly the legs with content |
| PickEditor.OddsToSave | src/components/admin/TipEditDialog.tsx:94 | an empty odds field is saved as none and any other as its parsed value |
| PickEditor.LoadForm | src/components/admin/TipEditDialog.tsx:47-59 | the dialog opens with the split pick and the analysis or the empty string |
| PickEditor.SaveForm | src/components/admin/TipEditDialog.tsx:85-98 | the saved analysis and odds are none exactly when their fields are empty |
| PickEditor.UneditedSaveRoundTrip | src/components/admin/TipEditDialog.tsx:47-98 | saving an unedited dialog writes back the teams, league, pick, tier and bet-builder flag unchanged and the odds as the parse of their rendering; the analysis changes only from empty to none |

## Left out

- The database and network calls are not modelled: fetches, inserts, updates and deletes through the Supabase client, together with their error paths and toasts. The tables are sequences, and each handler is a function from the old table to the new one.
- React state, hooks, routing, dialogs and CSS are not modelled. Only the values and decisions the components compute are kept.
- Floating-point arithmetic, `parseFloat` and `toFixed` are not modelled. Odds, stakes, rates and yields are exact reals. The parsed odds are a parameter. The `toFixed(1)` rounding of the displayed win rate is left out.
- Time zones are a fixed offset, so daylight-saving changes are not modelled.
- `Date.toDateString` is rendered as the decimal local day number, with "n" in front of days before 1970 so that no label holds a "-". Two timestamps get equal labels exactly when `toDateString` would give them equal labels.
- date-fns formatting of dates is left out.
- `maybeSingle` is not modelled as an error. When two or more grants match it returns an error and no row, the code then inserts, and the model does the same. The error itself is not modelled.
- Administration.RecentSettled: a settled row without a settlement time sorts as time 0. In the source its comparator yields NaN and the order is engine-defined. Under the lifecycle invariant such a row does not exist.
- Administration.CreateTip: the database assigns `id` and `created_at`, so they are parameters. The row is taken to start as Pending with no settlement time and no proof image, the table's defaults. The table schema is not part of this model.
- AccessGrants.GrantAccess: the tier comes from a select box of the grantable tiers, and the code only checks that it is non-empty. The model therefore accepts any non-empty label. `grantedAt` is taken to be the moment of the grant, which the database fills in.
- PickEditor.UneditedSaveRoundTrip: the odds are written back as the parse of their rendering, which is a parameter. That `parseFloat(odds.toString())` gives back the odds is a property of floating point and is not modelled.
- TierCatalog.Price: the price table is a plain JavaScript object, so a label such as "constructor" or "toString" would look up an inherited member rather than fall back to 0. The model returns 0 for every label outside the catalogue. The tier column is an enumeration of the catalogue labels, so such a label does not occur.
- AccessGrants.AccessByUser: the grouping is a plain JavaScript object, so a user id such as "__proto__" or "constructor" would misbehave or throw on `push`. The model files every id in a map. User ids are UUIDs, so such an id does not occur.
- PickEditor.UpdatePick: requires an index inside the list. JavaScript would lengthen the array with holes for a larger index, and the dialog only passes indices of existing legs.
- Text.Lower covers ASCII, Latin-1 and the Polish letters outside Latin-1. Other Unicode case mappings are not modelled.
- The `user_purchases` query and `handleBuyTip` are not modelled. The query is a fetch, so the purchase list is a parameter. `handleBuyTip` only shows a message or navigates.
- The statistics panel on the tips page receives only settled tips, filtered by the server. `Statistics.PendingTipChangesNothing` shows that this filtering does not change the figures.
- These files are not part of this model:
  - `src/hooks/useContentProtection.ts` (DOM listeners and a debugger trap);
  - `src/App.tsx`, `src/components/layout/Header.tsx` and `src/components/layout/Footer.tsx` (routing and static layout);
  - `src/pages/MyTips.tsx` (fetching only);
  - `src/pages/Archive.tsx` (its logic is commented out);
  - `src/components/tips/TierFilter.tsx` (a static list of labels).
- The static tier descriptions and quick-pick lists are not modelled. They are constant text.

=== FILE: access.dfy ===
/** The operator's access manager: day passes granting a user one paid tier
    until the end of the local day, their revocation and expiry, the user
    search, and the per-user grouping of grants. */
module AccessGrants {
  import opened Wrappers
  import opened Seqs
  import opened Text
  import opened Calendar

  /** A row of `profiles`. */
  datatype Profile = Profile(id: string, email: Option<string>, fullName: Option<string>)

  /** A row of `user_tier_access`: the user may open tips of `pricingTier`
      until `expiresAt`. */
  datatype Grant = Grant(
    id: string,
    userId: string,
    pricingTier: string,
    expiresAt: int,
    grantedAt: int,
    grantedBy: Option<string>)

  /** 23:59:59 as milliseconds after local midnight. */
  const EndOfDay: int := 86_399_000

  /** The expiry of a pass granted at `now`: 23:59:59 local time on the same
      local day. Sub-second precision is dropped, as the source builds the
      date from whole seconds. */
  function GrantExpiry(now: int, offset: int): (e: int)
    ensures LocalDay(e, offset) == LocalDay(now, offset)
    ensures TimeOfDay(e, offset) == EndOfDay
    ensures now - e < 1000
    ensures TimeOfDay(now, offset) <= EndOfDay ==> e >= now
  {
    LocalMidnight(LocalDay(now, offset), offset) + EndOfDay
  }

  /** `new Date(expiresAt) < new Date()`: strictly in the past. Dates compare
      by their millisecond values, so a pass has lapsed from the first
      millisecond after its expiry on. */
  function IsExpired(expiresAt: int, now: int): (expired: bool)
    ensures expired <==> now >= expiresAt + 1
  {
    expiresAt < now
  }

  /** The test is strict: a pass is still valid at the very millisecond it
      expires and lapsed one millisecond later. */
  lemma ExpiryIsStrict(expiresAt: int)
    ensures !IsExpired(expiresAt, expiresAt) && IsExpired(expiresAt, expiresAt + 1)
  {
  }

  /** A pass granted at `now` stays valid for the rest of that local day up to
      23:59:59 inclusive, and has lapsed by the next local day. */
  lemma PassLastsTheDay(now: int, offset: int, later: int)
    requires later >= now
    ensures !IsExpired(GrantExpiry(now, offset), later)
        <==> later <= LocalMidnight(LocalDay(now, offset), offset) + EndOfDay
    ensures LocalDay(later, offset) > LocalDay(now, offset) ==> IsExpired(GrantExpiry(now, offset), later)
  {
    var e := GrantExpiry(now, offset);
    if LocalDay(later, offset) > LocalDay(now, offset) {
      var d := LocalDay(later, offset);
      assert later + offset >= d * MsPerDay;
      assert d * MsPerDay >= (LocalDay(now, offset) + 1) * MsPerDay;
    }
  }

  /** A pass granted during the last second of the day, after 23:59:59.000,
      is already expired at the moment it is granted. */
  lemma LastSecondPassIsExpired(now: int, offset: int)
    requires TimeOfDay(now, offset) > EndOfDay
    ensures IsExpired(GrantExpiry(now, offset), now)
  {
    assert now + offset == LocalDay(now, offset) * MsPerDay + TimeOfDay(now, offset);
  }

  predicate ForPair(g: Grant, userId: string, tier: string) {
    g.userId == userId && g.pricingTier == tier
  }

  function PairOf(userId: string, tier: string): Grant -> bool {
    (g: Grant) => ForPair(g, userId, tier)
  }

  /** At most one grant per user and tier. */
  predicate OnePerPair(grants: seq<Grant>) {
    forall i, j :: 0 <= i < j < |grants| ==>
      !(grants[i].userId == grants[j].userId && grants[i].pricingTier == grants[j].pricingTier)
  }

  /** The grantor column after an update: an absent current user is an
      undefined field, which the update body leaves out, so the old value stays. */
  function Regrantor(previous: Option<string>, grantor: Option<string>): Option<string> {
    if grantor.Some? then grantor else previous
  }

  function Extend(g: Grant, userId: string, tier: string, expiry: int, grantor: Option<string>): Grant {
    if ForPair(g, userId, tier) then g.(expiresAt := expiry, grantedBy := Regrantor(g.grantedBy, grantor)) else g
  }

  /** The grant form's submit: an empty user or tier is rejected; when exactly
      one grant for the pair exists its expiry and grantor are renewed,
      otherwise a new grant row is added. The database supplies `newId`; the
      row's `grantedAt` is `now`. */
  function GrantAccess(grants: seq<Grant>, userId: string, tier: string, now: int, offset: int,
                       newId: string, grantor: Option<string>): (r: Result<seq<Grant>, string>)
    ensures r.Success? <==> userId != "" && tier != ""
    ensures r.Success? && |Filter(grants, PairOf(userId, tier))| == 1 ==>
              |r.value| == |grants|
              && forall i :: 0 <= i < |grants| ==>
                   (ForPair(grants[i], userId, tier) ==>
                      r.value[i] == grants[i].(expiresAt := GrantExpiry(now, offset),
                                              grantedBy := Regrantor(grants[i].grantedBy, grantor)))
                   && (!ForPair(grants[i], userId, tier) ==> r.value[i] == grants[i])
    ensures r.Success? && |Filter(grants, PairOf(userId, tier))| != 1 ==>
              r.value == grants + [Grant(newId, userId, tier, GrantExpiry(now, offset), now, grantor)]
  {
    if userId == "" || tier == "" then Failure("Wybierz użytkownika i pakiet")
    else
      var expiry := GrantExpiry(now, offset);
      if |Filter(grants, PairOf(userId, tier))| == 1 then
        Success(seq(|grants|, i requires 0 <= i < |grants| => Extend(grants[i], userId, tier, expiry, grantor)))
      else
        Success(grants + [Grant(newId, userId, tier, expiry, now, grantor)])
  }

  /** After a successful grant the user holds a pass for the tier valid until
      the end of the day. */
  lemma GrantTakesEffect(grants: seq<Grant>, userId: string, tier: string, now: int, offset: int,
                         newId: string, grantor: Option<string>)
    requires userId != "" && tier != ""
    ensures var r := GrantAccess(grants, userId, tier, now, offset, newId, grantor).value;
            exists i :: 0 <= i < |r| && ForPair(r[i], userId, tier) && r[i].expiresAt == GrantExpiry(now, offset)
  {
    var r := GrantAccess(grants, userId, tier, now, offset, newId, grantor).value;
    var matches := Filter(grants, PairOf(userId, tier));
    if |matches| == 1 {
      FilterMembers(grants, PairOf(userId, tier));
      assert matches[0] in grants;
      var i :| 0 <= i < |grants| && grants[i] == matches[0];
      assert ForPair(r[i], userId, tier);
    } else {
      assert r[|grants|].expiresAt == GrantExpiry(now, offset);
    }
  }

  /** Granting keeps at most one grant per user and tier. */
  lemma GrantKeepsOnePerPair(grants: seq<Grant>, userId: string, tier: string, now: int, offset: int,
                             newId: string, grantor: Option<string>)
    requires OnePerPair(grants) && userId != "" && tier != ""
    ensures OnePerPair(GrantAccess(grants, userId, tier, now, offset, newId, grantor).value)
  {
    var r := GrantAccess(grants, userId, tier, now, offset, newId, grantor).value;
    var matches := Filter(grants, PairOf(userId, tier));
    if |matches| != 1 {
      NoMatchWhenUnique(grants, userId, tier);
      forall i, j | 0 <= i < j < |r|
        ensures !(r[i].userId == r[j].userId && r[i].pricingTier == r[j].pricingTier)
      {
        if j == |grants| {
          assert r[i] == grants[i];
          assert !PairOf(userId, tier)(grants[i]);
        }
      }
    }
  }

  /** With at most one grant per pair, a count other than one means none. */
  lemma NoMatchWhenUnique(grants: seq<Grant>, userId: string, tier: string)
    requires OnePerPair(grants)
    requires |Filter(grants, PairOf(userId, tier))| != 1
    ensures forall i :: 0 <= i < |grants| ==> !ForPair(grants[i], userId, tier)
  {
    AtMostOneMatch(grants, userId, tier);
    assert Filter(grants, PairOf(userId, tier)) == [];
    FilterMembers(grants, PairOf(userId, tier));
  }

  lemma {:induction false} AtMostOneMatch(grants: seq<Grant>, userId: string, tier: string)
    requires OnePerPair(grants)
    ensures |Filter(grants, PairOf(userId, tier))| <= 1
  {
    if |grants| > 0 {
      var rest := grants[1..];
      assert OnePerPair(rest) by {
        forall i, j | 0 <= i < j < |rest|
          ensures !(rest[i].userId == rest[j].userId && rest[i].pricingTier == rest[j].pricingTier)
        {
          assert rest[i] == grants[i + 1] && rest[j] == grants[j + 1];
        }
      }
      AtMostOneMatch(rest, userId, tier);
      if ForPair(grants[0], userId, tier) {
        forall i | 0 <= i < |rest| ensures !PairOf(userId, tier)(rest[i]) {
          assert rest[i] == grants[i + 1];
        }
        FilterNone(rest, PairOf(userId, tier));
      }
    }
  }

  /** After a successful grant every grant of the pair carries the new expiry
      and, when someone is logged in, the new grantor; with nobody logged in
      every existing row keeps its grantor. */
  lemma GrantedRowsCurrent(grants: seq<Grant>, userId: string, tier: string, now: int, offset: int,
                           newId: string, grantor: Option<string>)
    requires OnePerPair(grants) && userId != "" && tier != ""
    ensures var r := GrantAccess(grants, userId, tier, now, offset, newId, grantor).value;
            forall k :: 0 <= k < |r| && ForPair(r[k], userId, tier) ==>
              r[k].expiresAt == GrantExpiry(now, offset) && (grantor.Some? ==> r[k].grantedBy == grantor)
    ensures var r := GrantAccess(grants, userId, tier, now, offset, newId, grantor).value;
            grantor.None? ==> |grants| <= |r| && forall k :: 0 <= k < |grants| ==> r[k].grantedBy == grants[k].grantedBy
  {
    if |Filter(grants, PairOf(userId, tier))| != 1 {
      NoMatchWhenUnique(grants, userId, tier);
    }
  }

  /** Granting the same pass again on the same day changes nothing. */
  lemma RegrantSameDay(grants: seq<Grant>, userId: string, tier: string, now: int, later: int, offset: int,
                       newId: string, otherId: string, grantor: Option<string>)
    requires OnePerPair(grants) && userId != "" && tier != ""
    requires LocalDay(later, offset) == LocalDay(now, offset)
    ensures GrantAccess(GrantAccess(grants, userId, tier, now, offset, newId, grantor).value,
                        userId, tier, later, offset, otherId, grantor)
         == GrantAccess(grants, userId, tier, now, offset, newId, grantor)
  {
    var r := GrantAccess(grants, userId, tier, now, offset, newId, grantor).value;
    var expiry := GrantExpiry(now, offset);
    assert GrantExpiry(later, offset) == expiry;
    GrantKeepsOnePerPair(grants, userId, tier, now, offset, newId, grantor);
    GrantTakesEffect(grants, userId, tier, now, offset, newId, grantor);
    GrantedRowsCurrent(grants, userId, tier, now, offset, newId, grantor);
    var i :| 0 <= i < |r| && ForPair(r[i], userId, tier) && r[i].expiresAt == expiry;
    ExactlyOneMatch(r, userId, tier, i);
    var updated := seq(|r|, k requires 0 <= k < |r| => Extend(r[k], userId, tier, expiry, grantor));
    assert GrantAccess(r, userId, tier, later, offset, otherId, grantor) == Success(updated);
    assert updated == r;
  }

  lemma ExactlyOneMatch(grants: seq<Grant>, userId: string, tier: string, i: int)
    requires OnePerPair(grants) && 0 <= i < |grants| && ForPair(grants[i], userId, tier)
    ensures |Filter(grants, PairOf(userId, tier))| == 1
  {
    AtMostOneMatch(grants, userId, tier);
    FilterMembers(grants, PairOf(userId, tier));
    assert grants[i] in Filter(grants, PairOf(userId, tier));
  }

  function NotId(accessId: string): Grant -> bool {
    (g: Grant) => g.id != accessId
  }

  /** Removes the grant with the given id; every other grant stays, in order. */
  function Revoke(grants: seq<Grant>, accessId: string): (r: seq<Grant>)
    ensures forall i :: 0 <= i < |r| ==> r[i].id != accessId && r[i] in grants
    ensures forall i :: 0 <= i < |grants| && grants[i].id != accessId ==> grants[i] in r
    ensures IsSubsequence(r, grants)
  {
    FilterMembers(grants, NotId(accessId));
    FilterIsSubsequence(grants, NotId(accessId));
    Filter(grants, NotId(accessId))
  }

  // ----- the user search -----

  /** `field?.toLowerCase().includes(q.toLowerCase())`: false when the field is null. */
  predicate FieldMatches(field: Option<string>, query: string) {
    field.Some? && Contains(Lower(field.value), Lower(query))
  }

  predicate UserMatches(u: Profile, query: string) {
    FieldMatches(u.email, query) || FieldMatches(u.fullName, query)
  }

  function Matching(query: string): Profile -> bool {
    (u: Profile) => UserMatches(u, query)
  }

  /** The users whose email or full name contains the query, ignoring case. */
  function FilterUsers(users: seq<Profile>, query: string): (r: seq<Profile>)
    ensures forall i :: 0 <= i < |r| ==> r[i] in users && UserMatches(r[i], query)
    ensures forall i :: 0 <= i < |users| && UserMatches(users[i], query) ==> users[i] in r
    ensures IsSubsequence(r, users)
  {
    FilterMembers(users, Matching(query));
    FilterIsSubsequence(users, Matching(query));
    Filter(users, Matching(query))
  }

  lemma LowerCharIdempotent(c: char)
    ensures LowerChar(LowerChar(c)) == LowerChar(c)
  {
  }

  lemma LowerIdempotent(s: string)
    ensures Lower(Lower(s)) == Lower(s)
  {
    forall i | 0 <= i < |s| ensures Lower(Lower(s))[i] == Lower(s)[i] {
      LowerCharIdempotent(s[i]);
    }
  }

  /** The search ignores the case of the query. */
  lemma SearchIgnoresCase(users: seq<Profile>, query: string)
    ensures FilterUsers(users, Lower(query)) == FilterUsers(users, query)
  {
    LowerIdempotent(query);
    FilterSameOn(users, Matching(Lower(query)), Matching(query));
  }

  /** An empty query keeps exactly the users that have an email or a full name;
      a user with neither never shows. */
  lemma EmptyQueryKeepsNamed(u: Profile)
    ensures UserMatches(u, "") <==> u.email.Some? || u.fullName.Some?
  {
    if u.email.Some? {
      assert OccursAt(Lower(u.email.value), "", 0);
    }
    if u.fullName.Some? {
      assert OccursAt(Lower(u.fullName.value), "", 0);
    }
  }

  // ----- grants grouped by user -----

  function AddToUser(acc: map<string, seq<Grant>>, g: Grant): map<string, seq<Grant>> {
    acc[g.userId := (if g.userId in acc then acc[g.userId] else []) + [g]]
  }

  /** `reduce` of the grants into a record keyed by user id, each list in the
      order the grants were loaded. Every grant is filed under its own user,
      and no user is listed with an empty list. */
  function AccessByUser(grants: seq<Grant>): (r: map<string, seq<Grant>>)
    ensures forall i :: 0 <= i < |grants| ==> grants[i].userId in r
    ensures forall u :: u in r ==> |r[u]| > 0
    decreases |grants|
  {
    if |grants| == 0 then map[]
    else AddToUser(AccessByUser(grants[..|grants| - 1]), grants[|grants| - 1])
  }

  function OfUser(userId: string): Grant -> bool {
    (g: Grant) => g.userId == userId
  }

  /** The record holds a key for every user with a grant, and the list under a
      key is that user's grants in order. */
  lemma {:induction false} AccessByUserIsFilter(grants: seq<Grant>, userId: string)
    ensures userId in AccessByUser(grants) <==> Filter(grants, OfUser(userId)) != []
    ensures userId in AccessByUser(grants) ==> AccessByUser(grants)[userId] == Filter(grants, OfUser(userId))
    decreases |grants|
  {
    if |grants| > 0 {
      var a, g := grants[..|grants| - 1], grants[|grants| - 1];
      assert grants == a + [g];
      AccessByUserIsFilter(a, userId);
      FilterConcat(a, [g], OfUser(userId));
      FilterSingleton(g, OfUser(userId));
    }
  }

  /** The users with at least one grant, in the order of the user list. */
  function UsersWithAccess(users: seq<Profile>, grants: seq<Grant>): (r: seq<Profile>)
    ensures IsSubsequence(r, users)
  {
    FilterIsSubsequence(users, HasAccess(AccessByUser(grants)));
    Filter(users, HasAccess(AccessByUser(grants)))
  }

  function HasAccess(byUser: map<string, seq<Grant>>): Profile -> bool {
    (u: Profile) => u.id in byUser && |byUser[u.id]| > 0
  }

  /** A user is listed exactly when some grant names them. */
  lemma UsersWithAccessExact(users: seq<Profile>, grants: seq<Grant>, i: int)
    requires 0 <= i < |users|
    ensures users[i] in UsersWithAccess(users, grants)
        <==> exists k :: 0 <= k < |grants| && grants[k].userId == users[i].id
  {
    var byUser := AccessByUser(grants);
    var id := users[i].id;
    AccessByUserIsFilter(grants, id);
    FilterMembers(users, HasAccess(byUser));
    FilterMembers(grants, OfUser(id));
    var mine := Filter(grants, OfUser(id));
    if exists k :: 0 <= k < |grants| && grants[k].userId == id {
      var k :| 0 <= k < |grants| && grants[k].userId == id;
      assert grants[k] in mine;
    }
    if mine != [] {
      assert mine[0] in grants;
    }
  }
}

=== FILE: admin.dfy ===
/** The operator's page: the per-tier results table, the settlement lifecycle
    of a tip (settle, undo a settlement, delete), the pending and recently
    settled lists, and the row a new tip is stored as. */
module Administration {
  import opened Wrappers
  import opened Seqs
  import opened Tips
  import opened TierCatalog
  import opened Statistics
  import Sorting

  /** One row of the per-tier results table. */
  datatype TierStat = TierStat(
    tier: string,
    totalTips: nat,
    wonTips: nat,
    lostTips: nat,
    winrate: real,
    yieldPercent: real,
    profitLoss: real)

  function OfTier(tier: string): Tip -> bool {
    (t: Tip) => t.pricingTier == tier
  }

  /** The stake put on the settled tips of a list, Void tips included. */
  function TotalStaked(tips: seq<Tip>): real {
    StakeSum(Filter(tips, IsSettled))
  }

  predicate IsVoid(t: Tip) { t.status == Void }

  /** The settled stake is the stake on won tips, plus that on lost tips,
      plus that on Void tips: a Void tip's stake counts towards the yield's
      denominator although it adds nothing to the profit. */
  lemma {:induction false} TotalStakedByOutcome(tips: seq<Tip>)
    ensures TotalStaked(tips) == StakeSum(Filter(tips, IsWon)) + StakeSum(Filter(tips, IsLost))
                                 + StakeSum(Filter(tips, IsVoid))
  {
    if |tips| > 0 {
      var t, rest := tips[0], tips[1..];
      TotalStakedByOutcome(rest);
      StakeSumConcat(if IsSettled(t) then [t] else [], Filter(rest, IsSettled));
      StakeSumConcat(if IsWon(t) then [t] else [], Filter(rest, IsWon));
      StakeSumConcat(if IsLost(t) then [t] else [], Filter(rest, IsLost));
      StakeSumConcat(if IsVoid(t) then [t] else [], Filter(rest, IsVoid));
      assert StakeSum([t]) == t.stake by { assert [t][1..] == []; }
    }
  }

  /** The yield in percent: profit over the settled stake, or 0 when nothing
      positive was staked. */
  function Yield(profit: real, staked: real): (y: real)
    ensures staked > 0.0 ==> y * staked == profit * 100.0
    ensures staked <= 0.0 ==> y == 0.0
  {
    if staked > 0.0 then (profit / staked) * 100.0 else 0.0
  }

  /** The figures of one tier, computed over the tips of that tier only. */
  function TierStatOf(allTips: seq<Tip>, tier: string): (s: TierStat)
    ensures s.tier == tier
    ensures var tt := Filter(allTips, OfTier(tier));
            s.totalTips == |tt| && s.wonTips == WonCount(tt) && s.lostTips == LostCount(tt)
            && s.winrate == WinRate(tt)
    ensures s.wonTips + s.lostTips <= s.totalTips
    ensures 0.0 <= s.winrate <= 100.0
    ensures s.profitLoss == Winnings(Filter(Filter(allTips, OfTier(tier)), IsWon))
                          - StakeSum(Filter(Filter(allTips, OfTier(tier)), IsLost))
    ensures TotalStaked(Filter(allTips, OfTier(tier))) > 0.0 ==>
              s.yieldPercent * TotalStaked(Filter(allTips, OfTier(tier))) == s.profitLoss * 100.0
    ensures TotalStaked(Filter(allTips, OfTier(tier))) <= 0.0 ==> s.yieldPercent == 0.0
    ensures s.yieldPercent == Yield(s.profitLoss, TotalStaked(Filter(allTips, OfTier(tier))))
  {
    var tierTips := Filter(allTips, OfTier(tier));
    WonLostWithinSettled(tierTips);
    ProfitIsWinningsLessLosses(tierTips);
    var profit := Profit(tierTips);
    TierStat(tier, |tierTips|, WonCount(tierTips), LostCount(tierTips), WinRate(tierTips),
             Yield(profit, TotalStaked(tierTips)), profit)
  }

  /** The rows for a list of tiers, in the list's order. */
  function StatsFor(tiers: seq<string>, allTips: seq<Tip>): (r: seq<TierStat>)
    ensures |r| == |tiers|
    ensures forall i :: 0 <= i < |r| ==> r[i].tier == tiers[i]
  {
    if |tiers| == 0 then [] else [TierStatOf(allTips, tiers[0])] + StatsFor(tiers[1..], allTips)
  }

  /** The results table: one row per catalogue tier, cheapest first. */
  function CalculateTierStats(allTips: seq<Tip>): (r: seq<TierStat>)
    ensures |r| == |PricingTiers|
    ensures forall i :: 0 <= i < |r| ==> r[i].tier == PricingTiers[i]
  {
    StatsFor(PricingTiers, allTips)
  }

  function TotalOfRows(rows: seq<TierStat>): nat {
    if |rows| == 0 then 0 else rows[0].totalTips + TotalOfRows(rows[1..])
  }

  /** How many entries of `tiers` equal `v`. */
  function Hits(tiers: seq<string>, v: string): nat {
    if |tiers| == 0 then 0 else (if tiers[0] == v then 1 else 0) + Hits(tiers[1..], v)
  }

  lemma {:induction false} HitsDistinct(tiers: seq<string>, v: string)
    requires NoDuplicates(tiers)
    ensures Hits(tiers, v) == if v in tiers then 1 else 0
  {
    if |tiers| > 0 {
      assert NoDuplicates(tiers[1..]) by {
        forall i, j | 0 <= i < j < |tiers[1..]| ensures tiers[1..][i] != tiers[1..][j] {
          assert tiers[1..][i] == tiers[i + 1] && tiers[1..][j] == tiers[j + 1];
        }
      }
      HitsDistinct(tiers[1..], v);
      if tiers[0] == v {
        assert v !in tiers[1..] by {
          forall j | 0 <= j < |tiers[1..]| ensures tiers[1..][j] != v {
            assert tiers[1..][j] == tiers[j + 1];
          }
        }
      } else {
        assert v in tiers <==> v in tiers[1..] by {
          assert tiers == [tiers[0]] + tiers[1..];
        }
      }
    }
  }

  /** Adding one tip in front raises the table's total by the number of rows
      of its tier. */
  lemma {:induction false} TotalOfRowsCons(tiers: seq<string>, x: Tip, xs: seq<Tip>)
    ensures TotalOfRows(StatsFor(tiers, [x] + xs)) == TotalOfRows(StatsFor(tiers, xs)) + Hits(tiers, x.pricingTier)
  {
    if |tiers| > 0 {
      TotalOfRowsCons(tiers[1..], x, xs);
      assert ([x] + xs)[1..] == xs;
      assert Filter([x] + xs, OfTier(tiers[0]))
          == (if x.pricingTier == tiers[0] then [x] else []) + Filter(xs, OfTier(tiers[0]));
    }
  }

  lemma CatalogueDistinct()
    ensures NoDuplicates(PricingTiers)
  {
    forall i, j | 0 <= i < j < |PricingTiers| ensures PricingTiers[i] != PricingTiers[j] {
      RankOfCatalogue(i);
      RankOfCatalogue(j);
    }
  }

  /** Every tip of a catalogue tier is counted in exactly one row of the table
      and every other tip in none, so the rows' totals add up to the number of
      tips whose tier is in the catalogue. */
  lemma {:induction false} TierRowsPartition(allTips: seq<Tip>)
    ensures TotalOfRows(CalculateTierStats(allTips)) == |Filter(allTips, InCatalogue)|
  {
    if |allTips| > 0 {
      var x, xs := allTips[0], allTips[1..];
      assert allTips == [x] + xs;
      TierRowsPartition(xs);
      TotalOfRowsCons(PricingTiers, x, xs);
      CatalogueDistinct();
      HitsDistinct(PricingTiers, x.pricingTier);
    } else {
      assert TotalOfRows(StatsFor(PricingTiers, [])) == 0 by {
        EmptyRows(PricingTiers);
      }
    }
  }

  lemma {:induction false} EmptyRows(tiers: seq<string>)
    ensures TotalOfRows(StatsFor(tiers, [])) == 0
  {
    if |tiers| > 0 {
      EmptyRows(tiers[1..]);
    }
  }

  predicate InCatalogue(t: Tip) { t.pricingTier in PricingTiers }

  /** With odds of at least 1 and non-negative stakes a tier never shows a
      yield below -100 %. */
  lemma YieldAtLeastMinusHundred(allTips: seq<Tip>, tier: string)
    requires forall i :: 0 <= i < |allTips| ==> allTips[i].odds >= 1.0 && allTips[i].stake >= 0.0
    ensures TierStatOf(allTips, tier).yieldPercent >= -100.0
  {
    var tierTips := Filter(allTips, OfTier(tier));
    FilterMembers(allTips, OfTier(tier));
    forall i | 0 <= i < |tierTips| ensures tierTips[i].odds >= 1.0 && tierTips[i].stake >= 0.0 {
      var k :| 0 <= k < |allTips| && allTips[k] == tierTips[i];
    }
    LossBoundedByStake(tierTips);
    var staked := TotalStaked(tierTips);
    if staked > 0.0 {
      QuotientAtLeastMinusOne(Profit(tierTips), staked);
    }
  }

  lemma QuotientAtLeastMinusOne(p: real, s: real)
    requires s > 0.0 && p >= -s
    ensures (p / s) * 100.0 >= -100.0
  {
    var q := p / s;
    assert q * s == p;
  }

  // ----- the settlement lifecycle -----

  function SettleRow(t: Tip, id: string, status: Status, now: int): Tip {
    if t.id == id then t.(status := status, settledAt := Some(now)) else t
  }

  /** Marks the tip with the given id Won, Lost or Void, settled at `now`;
      every other row is untouched. */
  function Settle(tips: seq<Tip>, id: string, status: Status, now: int): (r: seq<Tip>)
    requires status != Pending
    ensures |r| == |tips|
    ensures forall i :: 0 <= i < |r| ==> r[i].id == tips[i].id
    ensures forall i :: 0 <= i < |r| && tips[i].id == id ==>
              r[i].status == status && r[i].settledAt == Some(now)
              && r[i].(status := tips[i].status, settledAt := tips[i].settledAt) == tips[i]
    ensures forall i :: 0 <= i < |r| && tips[i].id != id ==> r[i] == tips[i]
    ensures AllConsistent(tips) ==> AllConsistent(r)
  {
    seq(|tips|, i requires 0 <= i < |tips| => SettleRow(tips[i], id, status, now))
  }

  function UnsettleRow(t: Tip, id: string): Tip {
    if t.id == id then t.(status := Pending, settledAt := None) else t
  }

  /** Undoes a settlement: the tip with the given id is Pending again and has
      no settlement time; every other row is untouched. */
  function Unsettle(tips: seq<Tip>, id: string): (r: seq<Tip>)
    ensures |r| == |tips|
    ensures forall i :: 0 <= i < |r| ==> r[i].id == tips[i].id
    ensures forall i :: 0 <= i < |r| && tips[i].id == id ==>
              r[i].status == Pending && r[i].settledAt == None
              && r[i].(status := tips[i].status, settledAt := tips[i].settledAt) == tips[i]
    ensures forall i :: 0 <= i < |r| && tips[i].id != id ==> r[i] == tips[i]
    ensures AllConsistent(tips) ==> AllConsistent(r)
  {
    seq(|tips|, i requires 0 <= i < |tips| => UnsettleRow(tips[i], id))
  }

  /** Settling a pending tip and then undoing it gives back the list it started from. */
  lemma UnsettleUndoesSettle(tips: seq<Tip>, id: string, status: Status, now: int)
    requires status != Pending && AllConsistent(tips)
    requires forall i :: 0 <= i < |tips| && tips[i].id == id ==> tips[i].status == Pending
    ensures Unsettle(Settle(tips, id, status, now), id) == tips
  {
    var r := Unsettle(Settle(tips, id, status, now), id);
    forall i | 0 <= i < |tips| ensures r[i] == tips[i] {
      assert SettlementConsistent(tips[i]);
    }
  }

  /** Settling again with a new outcome overrides the earlier settlement. */
  lemma ResettleOverrides(tips: seq<Tip>, id: string, s1: Status, t1: int, s2: Status, t2: int)
    requires s1 != Pending && s2 != Pending
    ensures Settle(Settle(tips, id, s1, t1), id, s2, t2) == Settle(tips, id, s2, t2)
  {
  }

  /** Deletes every row with the given id, keeping the others in order. */
  function Delete(tips: seq<Tip>, id: string): (r: seq<Tip>)
    ensures forall i :: 0 <= i < |r| ==> r[i].id != id
    ensures IsSubsequence(r, tips)
  {
    FilterMembers(tips, NotId(id));
    FilterIsSubsequence(tips, NotId(id));
    Filter(tips, NotId(id))
  }

  function NotId(id: string): Tip -> bool {
    (t: Tip) => t.id != id
  }

  /** Deletion loses no row with another id. */
  lemma DeleteKeepsOthers(tips: seq<Tip>, id: string, i: int)
    requires 0 <= i < |tips| && tips[i].id != id
    ensures tips[i] in Delete(tips, id)
  {
    FilterMembers(tips, NotId(id));
  }

  predicate IsPending(t: Tip) { t.status == Pending }

  /** The tips awaiting settlement, in the loaded order. */
  function PendingTips(tips: seq<Tip>): (r: seq<Tip>)
    ensures forall i :: 0 <= i < |r| ==> r[i].status == Pending && r[i] in tips
    ensures IsSubsequence(r, tips)
  {
    FilterMembers(tips, IsPending);
    FilterIsSubsequence(tips, IsPending);
    Filter(tips, IsPending)
  }

  /** Every tip is either pending or settled, never both. */
  lemma {:induction false} PendingAndSettledPartition(tips: seq<Tip>)
    ensures |PendingTips(tips)| + SettledCount(tips) == |tips|
  {
    if |tips| > 0 {
      PendingAndSettledPartition(tips[1..]);
      var t := tips[0];
      assert Filter(tips, IsPending) == (if IsPending(t) then [t] else []) + Filter(tips[1..], IsPending);
      assert Filter(tips, IsSettled) == (if IsSettled(t) then [t] else []) + Filter(tips[1..], IsSettled);
    }
  }

  /** The settlement time a row sorts by; a row without one sorts as time 0. */
  function SettledKey(t: Tip): int {
    t.settledAt.GetOr(0)
  }

  const RecentLimit: nat := 10

  /** The settled tips, latest settlement first, ties in loaded order, at most
      ten, and no row listed more often than it is loaded. */
  function RecentSettled(tips: seq<Tip>): (r: seq<Tip>)
    ensures |r| == if SettledCount(tips) < RecentLimit then SettledCount(tips) else RecentLimit
    ensures forall i :: 0 <= i < |r| ==> r[i].status != Pending && r[i] in tips
    ensures Sorting.SortedDesc(r, SettledKey)
    ensures multiset(r) <= multiset(Filter(tips, IsSettled))
  {
    var sorted := SortedSettled(tips);
    var n := if |sorted| < RecentLimit then |sorted| else RecentLimit;
    TopOfSorted(tips, n);
    assert sorted == sorted[..n] + sorted[n..];
    sorted[..n]
  }

  /** All settled tips, latest settlement first. */
  function SortedSettled(tips: seq<Tip>): (s: seq<Tip>)
    ensures |s| == SettledCount(tips)
    ensures multiset(s) == multiset(Filter(tips, IsSettled))
    ensures Sorting.SortedDesc(s, SettledKey)
  {
    Sorting.SortPermutes(Filter(tips, IsSettled), SettledKey);
    Sorting.SortDesc(Filter(tips, IsSettled), SettledKey)
  }

  lemma TopOfSorted(tips: seq<Tip>, n: nat)
    requires n <= |SortedSettled(tips)|
    ensures forall i :: 0 <= i < n ==> SortedSettled(tips)[i].status != Pending && SortedSettled(tips)[i] in tips
    ensures Sorting.SortedDesc(SortedSettled(tips)[..n], SettledKey)
  {
    var settled := Filter(tips, IsSettled);
    var sorted := SortedSettled(tips);
    Sorting.SortPermutes(settled, SettledKey);
    FilterMembers(tips, IsSettled);
    forall i | 0 <= i < n ensures sorted[i].status != Pending && sorted[i] in tips {
      assert sorted[i] in settled;
    }
    Sorting.SortedPrefix(sorted, SettledKey, n);
  }

  /** A settled tip left out of the recent list was settled no later than any
      tip on it. */
  lemma RecentAreLatest(tips: seq<Tip>, j: int)
    requires 0 <= j < |tips| && tips[j].status != Pending
    requires tips[j] !in RecentSettled(tips)
    ensures forall i :: 0 <= i < |RecentSettled(tips)| ==> SettledKey(tips[j]) <= SettledKey(RecentSettled(tips)[i])
  {
    var sorted := SortedSettled(tips);
    FilterMembers(tips, IsSettled);
    assert tips[j] in multiset(Filter(tips, IsSettled));
    var r := RecentSettled(tips);
    assert r == sorted[..|r|];
    var k :| 0 <= k < |sorted| && sorted[k] == tips[j];
    assert k >= |r|;
    Sorting.SortedDescOrdered(sorted, SettledKey);
  }

  // ----- creating a tip -----

  /** The new-tip form as the operator fills it in; odds arrive already parsed. */
  datatype TipForm = TipForm(
    homeTeam: string,
    awayTeam: string,
    league: string,
    pick: string,
    odds: real,
    pricingTier: string,
    analysis: string,
    isBetBuilder: bool)

  const DefaultStake: real := 10.0

  /** The row a submitted form becomes. The database assigns `id` and
      `createdAt`; the match date is the moment of submission, the stake is
      always 10, and the tip starts unsettled. */
  function CreateTip(form: TipForm, id: string, createdAt: int, now: int): (t: Tip)
    ensures t.id == id && t.createdAt == createdAt
    ensures t.stake == DefaultStake && t.matchDate == now
    ensures t.status == Pending && SettlementConsistent(t)
    ensures t.analysis.None? <==> form.analysis == ""
    ensures Present(t.analysis) <==> form.analysis != ""
    ensures t.homeTeam == form.homeTeam && t.awayTeam == form.awayTeam && t.league == form.league
    ensures t.pick == form.pick && t.proofImageUrl.None?
    ensures t.odds == form.odds && t.pricingTier == form.pricingTier && t.isBetBuilder == form.isBetBuilder
  {
    Tip(id, createdAt, now, form.homeTeam, form.awayTeam, form.league, form.pick, form.odds,
        DefaultStake, form.pricingTier, Pending, EmptyToNone(form.analysis), form.isBetBuilder,
        None, None)
  }

  /** A newly created tip shows in the pending list and leaves the statistics as they were. */
  lemma CreatedTipIsPending(tips: seq<Tip>, form: TipForm, id: string, createdAt: int, now: int)
    ensures PendingTips(tips + [CreateTip(form, id, createdAt, now)])
         == PendingTips(tips) + [CreateTip(form, id, createdAt, now)]
    ensures StatsOverview(tips + [CreateTip(form, id, createdAt, now)]) == StatsOverview(tips)
  {
    var t := CreateTip(form, id, createdAt, now);
    FilterConcat(tips, [t], IsPending);
    FilterSingleton(t, IsPending);
    PendingTipChangesNothing(tips, [], t);
    assert tips + [t] + [] == tips + [t];
    assert tips + [] == tips;
  }
}

=== FILE: buckets.dfy ===
/** Grouping a list by a key into an insertion-ordered map, the pattern
    `map.get(key) || []; push; map.set(key, ...)` followed by iteration over
    the map. A JavaScript `Map` iterates in key insertion order, so it is kept
    here as an association list. */
module Buckets {
  import opened Wrappers
  import opened Seqs

  /** `groups[i]` holds the items filed under `keys[i]`. */
  datatype Buckets<T, K> = Buckets(keys: seq<K>, groups: seq<seq<T>>)

  function HasKey<T, K(==)>(key: T -> K, k: K): T -> bool {
    x => key(x) == k
  }

  /** Position of `k` among the keys, if present. */
  function Find<K(==)>(keys: seq<K>, k: K): (r: Option<nat>)
    ensures r.Some? ==> r.value < |keys| && keys[r.value] == k
    ensures r.None? ==> k !in keys
  {
    if |keys| == 0 then None
    else if keys[|keys| - 1] == k then Some(|keys| - 1)
    else Find(keys[..|keys| - 1], k)
  }

  /** One step of the loop: append `x` to its key's group, opening a new group
      at the end when the key has not been seen. */
  function File<T, K(==)>(b: Buckets<T, K>, x: T, key: T -> K): Buckets<T, K>
    requires |b.keys| == |b.groups|
  {
    var k := key(x);
    match Find(b.keys, k)
    case Some(i) => Buckets(b.keys, b.groups[i := b.groups[i] + [x]])
    case None => Buckets(b.keys + [k], b.groups + [[x]])
  }

  /** `b` is the partition of `xs` by `key`: the keys are the distinct keys of
      `xs`, and each group holds exactly the items with its key, in input
      order, and is non-empty. The order of the keys is `KeysInOrder`. */
  ghost predicate Partitions<T, K>(b: Buckets<T, K>, xs: seq<T>, key: T -> K) {
    && |b.keys| == |b.groups|
    && NoDuplicates(b.keys)
    && (forall i :: 0 <= i < |xs| ==> key(xs[i]) in b.keys)
    && (forall j :: 0 <= j < |b.keys| ==> b.groups[j] == Filter(xs, HasKey(key, b.keys[j])))
    && (forall j :: 0 <= j < |b.groups| ==> |b.groups[j]| > 0)
  }

  /** The keys are listed in order of first occurrence: wherever a key occurs
      in `xs`, every key listed before it has already occurred. */
  ghost predicate KeysInOrder<T, K>(keys: seq<K>, xs: seq<T>, key: T -> K) {
    forall j, m, i :: 0 <= j < m < |keys| && 0 <= i < |xs| && key(xs[i]) == keys[m] ==>
      OccursBefore(xs, key, keys[j], i)
  }

  /** Some item before position `i` has key `k`. */
  ghost predicate OccursBefore<T, K>(xs: seq<T>, key: T -> K, k: K, i: int) {
    exists i0 :: 0 <= i0 < i && i0 < |xs| && key(xs[i0]) == k
  }

  /** Every key of a partition occurs in the partitioned list. */
  lemma KeyOccurs<T, K>(b: Buckets<T, K>, xs: seq<T>, key: T -> K, j: int)
    requires Partitions(b, xs, key) && 0 <= j < |b.keys|
    ensures OccursBefore(xs, key, b.keys[j], |xs|)
  {
    var p := HasKey(key, b.keys[j]);
    FilterMembers(xs, p);
    var g := b.groups[j];
    assert g[0] in xs && p(g[0]);
    var i0 :| 0 <= i0 < |xs| && xs[i0] == g[0];
  }

  /** The whole loop, item by item from the front. */
  function Group<T, K(==)>(xs: seq<T>, key: T -> K): (b: Buckets<T, K>)
    ensures Partitions(b, xs, key)
  {
    if |xs| == 0 then Buckets([], [])
    else
      var prefix := xs[..|xs| - 1];
      var x := xs[|xs| - 1];
      var b := Group(prefix, key);
      FileStep(b, prefix, x, key);
      assert xs == prefix + [x];
      File(b, x, key)
  }

  /** The groups come out in order of each key's first occurrence in `xs`. */
  lemma {:induction false} GroupKeysInOrder<T, K>(xs: seq<T>, key: T -> K)
    ensures KeysInOrder(Group(xs, key).keys, xs, key)
  {
    if |xs| > 0 {
      var prefix := xs[..|xs| - 1];
      GroupKeysInOrder(prefix, key);
      FileKeysInOrder(Group(prefix, key), prefix, xs[|xs| - 1], key);
      assert xs == prefix + [xs[|xs| - 1]];
    }
  }

  lemma FileStep<T, K>(b: Buckets<T, K>, prefix: seq<T>, x: T, key: T -> K)
    requires Partitions(b, prefix, key)
    ensures Partitions(File(b, x, key), prefix + [x], key)
  {
    var xs := prefix + [x];
    var k := key(x);
    var b' := File(b, x, key);
    forall i | 0 <= i < |xs| ensures key(xs[i]) in b'.keys {
      if i < |prefix| {
        assert xs[i] == prefix[i];
      }
    }
    forall j | 0 <= j < |b'.keys|
      ensures b'.groups[j] == Filter(xs, HasKey(key, b'.keys[j]))
    {
      FileGroups(b, prefix, x, key, j);
    }
    match Find(b.keys, k)
    case Some(_) =>
    case None =>
      assert NoDuplicates(b'.keys);
  }

  /** After filing `x`, each group holds exactly the items of `prefix + [x]` with its key. */
  lemma FileGroups<T, K>(b: Buckets<T, K>, prefix: seq<T>, x: T, key: T -> K, j: int)
    requires Partitions(b, prefix, key)
    requires 0 <= j < |File(b, x, key).keys|
    ensures File(b, x, key).groups[j] == Filter(prefix + [x], HasKey(key, File(b, x, key).keys[j]))
  {
    var k := key(x);
    var b' := File(b, x, key);
    var p := HasKey(key, b'.keys[j]);
    FilterConcat(prefix, [x], p);
    assert Filter([x], p) == (if p(x) then [x] else []) by {
      assert [x][1..] == [];
    }
    match Find(b.keys, k)
    case Some(i) =>
      assert b'.keys[j] == b.keys[j];
      assert p(x) <==> j == i;
    case None =>
      if j < |b.keys| {
        assert b'.keys[j] == b.keys[j];
      } else {
        assert forall m :: 0 <= m < |prefix| ==> key(prefix[m]) in b.keys;
        FilterNone(prefix, p);
      }
  }

  lemma FileKeysInOrder<T, K>(b: Buckets<T, K>, prefix: seq<T>, x: T, key: T -> K)
    requires Partitions(b, prefix, key) && KeysInOrder(b.keys, prefix, key)
    ensures KeysInOrder(File(b, x, key).keys, prefix + [x], key)
  {
    var xs := prefix + [x];
    var b' := File(b, x, key);
    forall j, m, i | 0 <= j < m < |b'.keys| && 0 <= i < |xs| && key(xs[i]) == b'.keys[m]
      ensures OccursBefore(xs, key, b'.keys[j], i)
    {
      assert b'.keys[j] == b.keys[j];
      if i < |prefix| {
        assert xs[i] == prefix[i];
        if m < |b.keys| {
          assert b'.keys[m] == b.keys[m];
          assert OccursBefore(prefix, key, b.keys[j], i);
          var i0 :| 0 <= i0 < i && i0 < |prefix| && key(prefix[i0]) == b.keys[j];
          assert xs[i0] == prefix[i0];
        } else {
          // the key opened by `x` does not occur in `prefix`
          assert false;
        }
      } else {
        KeyOccurs(b, prefix, key, j);
        var i0 :| 0 <= i0 < |prefix| && key(prefix[i0]) == b.keys[j];
        assert xs[i0] == prefix[i0];
      }
    }
  }

  /** An item with an unseen key opens a new group at the end. */
  lemma GroupAppendFresh<T, K>(xs: seq<T>, key: T -> K)
    requires |xs| > 0 && key(xs[|xs| - 1]) !in Group(xs[..|xs| - 1], key).keys
    ensures Group(xs, key)
         == Buckets(Group(xs[..|xs| - 1], key).keys + [key(xs[|xs| - 1])],
                    Group(xs[..|xs| - 1], key).groups + [[xs[|xs| - 1]]])
  {
    var b := Group(xs[..|xs| - 1], key);
    assert Find(b.keys, key(xs[|xs| - 1])) == None;
  }

  lemma InitDistinct<T, K>(xs: seq<T>, key: T -> K)
    requires |xs| > 0 && DistinctBy(xs, key)
    ensures DistinctBy(xs[..|xs| - 1], key)
  {
    var prefix := xs[..|xs| - 1];
    forall i, j | 0 <= i < j < |prefix| ensures key(prefix[i]) != key(prefix[j]) {
      assert prefix[i] == xs[i] && prefix[j] == xs[j];
    }
  }

  /** When no two items share a key, every item gets a group of its own, in input order. */
  lemma {:induction false} GroupDistinct<T, K>(xs: seq<T>, key: T -> K)
    requires DistinctBy(xs, key)
    ensures |Group(xs, key).groups| == |xs|
    ensures forall i :: 0 <= i < |xs| ==> Group(xs, key).keys[i] == key(xs[i])
    ensures forall i :: 0 <= i < |xs| ==> Group(xs, key).groups[i] == [xs[i]]
  {
    if |xs| > 0 {
      var prefix := xs[..|xs| - 1];
      var x := xs[|xs| - 1];
      InitDistinct(xs, key);
      GroupDistinct(prefix, key);
      var b := Group(prefix, key);
      assert key(x) !in b.keys by {
        forall i | 0 <= i < |prefix| ensures b.keys[i] != key(x) {
          assert b.keys[i] == key(xs[i]);
        }
      }
      GroupAppendFresh(xs, key);
      var b' := Group(xs, key);
      forall i | 0 <= i < |xs| ensures b'.keys[i] == key(xs[i]) && b'.groups[i] == [xs[i]] {
        if i < |prefix| {
          assert xs[i] == prefix[i];
        }
      }
    }
  }

  /** Every item lies in exactly one group: an item is in a group exactly when
      the group's key is the item's key, and the keys are pairwise distinct and
      cover every item. */
  lemma ItemInExactlyOneGroup<T, K>(xs: seq<T>, key: T -> K, i: int)
    requires 0 <= i < |xs|
    ensures key(xs[i]) in Group(xs, key).keys
    ensures NoDuplicates(Group(xs, key).keys)
    ensures forall j :: 0 <= j < |Group(xs, key).groups| ==>
              (xs[i] in Group(xs, key).groups[j] <==> Group(xs, key).keys[j] == key(xs[i]))
  {
    var b := Group(xs, key);
    forall j | 0 <= j < |b.groups| ensures xs[i] in b.groups[j] <==> b.keys[j] == key(xs[i]) {
      var p := HasKey(key, b.keys[j]);
      FilterMembers(xs, p);
      if xs[i] in b.groups[j] {
        var m :| 0 <= m < |b.groups[j]| && b.groups[j][m] == xs[i];
        assert p(b.groups[j][m]);
      }
      if b.keys[j] == key(xs[i]) {
        assert p(xs[i]);
      }
    }
  }

  lemma GroupSingle<T, K>(x: T, key: T -> K)
    ensures Group([x], key) == Buckets([key(x)], [[x]])
  {
    assert [x][..0] == [];
  }

  /** Two items with the same key form a single group. */
  lemma GroupPair<T, K>(x: T, y: T, key: T -> K)
    requires key(x) == key(y)
    ensures Group([x, y], key) == Buckets([key(x)], [[x, y]])
  {
    var b1 := Group([x], key);
    GroupSingle(x, key);
    assert [x, y][..1] == [x] && [x, y][1] == y;
    assert Find(b1.keys, key(y)) == Some(0);
    assert Group([x, y], key) == File(b1, y, key);
    assert [x] + [y] == [x, y];
    assert [[x]][0 := [x, y]] == [[x, y]];
  }
}

=== FILE: calendar.dfy ===
/** Timestamps are integer milliseconds since the epoch. The viewer's local
    time zone is a fixed offset in milliseconds added to a timestamp to obtain
    local wall-clock time. */
module Calendar {
  import Text

  const MsPerDay: int := 86_400_000

  /** The local calendar day a timestamp falls on, counted from the epoch.
      Dafny's `/` rounds down for a positive divisor, as a day count must. */
  function LocalDay(t: int, offset: int): int {
    (t + offset) / MsPerDay
  }

  /** Milliseconds elapsed since local midnight. */
  function TimeOfDay(t: int, offset: int): (ms: int)
    ensures 0 <= ms < MsPerDay
  {
    (t + offset) % MsPerDay
  }

  /** The timestamp of local midnight opening the given local day. */
  function LocalMidnight(day: int, offset: int): int {
    day * MsPerDay - offset
  }

  /** A textual name of a local day, the counterpart of `Date.toDateString()`:
      distinct days get distinct names, and like "Sat Dec 27 1969" a name
      never contains "-", also for days before the epoch. */
  function DayLabel(day: int): (name: string)
    ensures |name| >= 1 && '-' !in name
  {
    if day < 0 then "n" + Text.NatToString(-day) else Text.NatToString(day)
  }

  lemma DayLabelInjective(a: int, b: int)
    requires DayLabel(a) == DayLabel(b)
    ensures a == b
  {
    var s := DayLabel(a);
    if a < 0 {
      assert s[0] == 'n';
      assert b < 0;
      assert Text.NatToString(-a) == s[1..] == Text.NatToString(-b);
      Text.NatToStringInjective(-a, -b);
    } else {
      assert '0' <= s[0] <= '9';
      assert b >= 0;
      Text.NatToStringInjective(a, b);
    }
  }

  /** Two timestamps fall on the same local day exactly when they lie in the
      same half-open window of 86 400 000 ms starting at local midnight. */
  lemma SameDayWindow(t: int, u: int, offset: int)
    ensures LocalDay(t, offset) == LocalDay(u, offset)
        <==> LocalMidnight(LocalDay(t, offset), offset) <= u < LocalMidnight(LocalDay(t, offset), offset) + MsPerDay
  {
    var d := LocalDay(t, offset);
    var e := LocalDay(u, offset);
    assert (u + offset) == e * MsPerDay + (u + offset) % MsPerDay;
  }
}

=== FILE: editor.dfy ===
/** The operator's edit dialog: a tip's pick is edited as a list of legs,
    loaded by cutting the stored pick at the separator and saved by joining
    the legs that have content. */
module PickEditor {
  import opened Wrappers
  import opened Seqs
  import opened Text
  import opened Tips

  /** The legs the dialog opens with: the pieces of the pick when it holds a
      separator, otherwise the pick as one leg. */
  function ParsePicks(pick: string): (legs: seq<string>)
    ensures |legs| >= 1
    ensures legs == Split(pick)
  {
    if Contains(pick, Separator) then Split(pick)
    else
      SplitWithoutSeparator(pick);
      [pick]
  }

  /** Appends one empty leg. */
  function AddPick(legs: seq<string>): (r: seq<string>)
    ensures |r| == |legs| + 1 && r[..|legs|] == legs && r[|legs|] == ""
  {
    legs + [""]
  }

  /** Removes the leg at `index` unless it is the only one; an index outside
      the list removes nothing. */
  function RemovePick(legs: seq<string>, index: int): (r: seq<string>)
    ensures |legs| >= 1 ==> |r| >= 1
    ensures |legs| > 1 && 0 <= index < |legs| ==> r == legs[..index] + legs[index + 1..]
    ensures |legs| <= 1 || index < 0 || index >= |legs| ==> r == legs
  {
    if |legs| > 1 then KeepOthers(legs, index)
    else legs
  }

  /** `legs.filter((_, i) => i !== index)`. */
  function KeepOthers(legs: seq<string>, index: int): (r: seq<string>)
    ensures 0 <= index < |legs| ==> r == legs[..index] + legs[index + 1..]
    ensures index < 0 || index >= |legs| ==> r == legs
  {
    if |legs| == 0 then []
    else
      var rest := KeepOthers(legs[1..], index - 1);
      if index == 0 then rest else [legs[0]] + rest
  }

  /** Replaces the leg at `index`. */
  function UpdatePick(legs: seq<string>, index: int, value: string): (r: seq<string>)
    requires 0 <= index < |legs|
    ensures |r| == |legs| && r[index] == value
    ensures forall i :: 0 <= i < |legs| && i != index ==> r[i] == legs[i]
  {
    legs[index := value]
  }

  /** `p.trim()` as a filter test: the leg has some non-whitespace character. */
  predicate HasContent(leg: string) {
    Trim(leg) != ""
  }

  /** The pick stored on save: the legs with content, untrimmed, joined by the separator. */
  function CombinedPick(legs: seq<string>): (pick: string)
    ensures pick == "" <==> forall i :: 0 <= i < |legs| ==> !HasContent(legs[i])
  {
    var kept := Filter(legs, HasContent);
    FilterMembers(legs, HasContent);
    if |kept| > 0 then
      assert HasContent(kept[0]);
      JoinNonEmpty(kept);
      Join(kept)
    else
      Join(kept)
  }

  /** Opening a pick and saving it unedited stores the same pick, provided
      every piece between separators has content. */
  lemma SaveAfterLoadKeepsPick(pick: string)
    requires forall k :: 0 <= k < |Split(pick)| ==> HasContent(Split(pick)[k])
    ensures CombinedPick(ParsePicks(pick)) == pick
  {
    FilterAll(Split(pick), HasContent);
    JoinSplit(pick);
  }

  /** A blank leg, such as the one `AddPick` appends, is dropped on save. */
  lemma BlankLegDropped(legs: seq<string>, blank: string)
    requires !HasContent(blank)
    ensures CombinedPick(legs + [blank]) == CombinedPick(legs)
  {
    FilterConcat(legs, [blank], HasContent);
    FilterSingleton(blank, HasContent);
    assert Filter(legs, HasContent) + [] == Filter(legs, HasContent);
  }

  /** Adding a leg and saving without typing into it stores the same pick. */
  lemma AddThenSaveUnchanged(legs: seq<string>)
    ensures CombinedPick(AddPick(legs)) == CombinedPick(legs)
  {
    assert Trim("") == "";
    BlankLegDropped(legs, "");
  }

  /** Saved legs that hold no bar come back as exactly the legs with content
      when the pick is opened again. */
  lemma LoadAfterSave(legs: seq<string>)
    requires forall i :: 0 <= i < |legs| ==> '|' !in legs[i]
    requires exists i :: 0 <= i < |legs| && HasContent(legs[i])
    ensures ParsePicks(CombinedPick(legs)) == Filter(legs, HasContent)
  {
    KeptLegs(legs);
    SplitJoin(Filter(legs, HasContent));
  }

  lemma KeptLegs(legs: seq<string>)
    requires forall i :: 0 <= i < |legs| ==> '|' !in legs[i]
    requires exists i :: 0 <= i < |legs| && HasContent(legs[i])
    ensures |Filter(legs, HasContent)| >= 1
    ensures forall k :: 0 <= k < |Filter(legs, HasContent)| ==> '|' !in Filter(legs, HasContent)[k]
  {
    var kept := Filter(legs, HasContent);
    FilterMembers(legs, HasContent);
    var i :| 0 <= i < |legs| && HasContent(legs[i]);
    assert legs[i] in kept;
    forall k | 0 <= k < |kept| ensures '|' !in kept[k] {
      assert kept[k] in legs;
      var j :| 0 <= j < |legs| && legs[j] == kept[k];
    }
  }

  /** `odds ? parseFloat(odds) : null`: an empty odds field is saved as none.
      The parsed value of a non-empty field is supplied by the caller. */
  function OddsToSave(oddsText: string, parsed: real): (r: Option<real>)
    ensures r.None? <==> oddsText == ""
    ensures r.Some? ==> r.value == parsed
  {
    if oddsText == "" then None else Some(parsed)
  }

  /** The dialog's fields. */
  datatype EditForm = EditForm(
    homeTeam: string,
    awayTeam: string,
    league: string,
    legs: seq<string>,
    oddsText: string,
    pricingTier: string,
    analysis: string,
    isBetBuilder: bool)

  /** The dialog filled from a tip; the odds field holds the caller's
      rendering of the odds. */
  function LoadForm(t: Tip, oddsText: string): (f: EditForm)
    ensures f.legs == Split(t.pick)
    ensures f.analysis == t.analysis.GetOr("")
  {
    EditForm(t.homeTeam, t.awayTeam, t.league, ParsePicks(t.pick), oddsText, t.pricingTier,
             t.analysis.GetOr(""), t.isBetBuilder)
  }

  /** The columns the save writes. */
  datatype TipUpdate = TipUpdate(
    homeTeam: string,
    awayTeam: string,
    league: string,
    pick: string,
    odds: Option<real>,
    pricingTier: string,
    analysis: Option<string>,
    isBetBuilder: bool)

  function SaveForm(f: EditForm, parsedOdds: real): (u: TipUpdate)
    ensures u.analysis.None? <==> f.analysis == ""
    ensures u.odds.None? <==> f.oddsText == ""
  {
    TipUpdate(f.homeTeam, f.awayTeam, f.league, CombinedPick(f.legs), OddsToSave(f.oddsText, parsedOdds),
              f.pricingTier, EmptyToNone(f.analysis), f.isBetBuilder)
  }

  /** Saving an unedited dialog writes back every column it loaded: the teams,
      league, pick, tier and bet-builder flag as they were, the odds as the
      parse of their rendering, and the analysis as it was except that an
      empty one becomes none. */
  lemma UneditedSaveRoundTrip(t: Tip, oddsText: string, parsedOdds: real)
    requires forall k :: 0 <= k < |Split(t.pick)| ==> HasContent(Split(t.pick)[k])
    ensures SaveForm(LoadForm(t, oddsText), parsedOdds).homeTeam == t.homeTeam
    ensures SaveForm(LoadForm(t, oddsText), parsedOdds).awayTeam == t.awayTeam
    ensures SaveForm(LoadForm(t, oddsText), parsedOdds).league == t.league
    ensures SaveForm(LoadForm(t, oddsText), parsedOdds).pick == t.pick
    ensures oddsText != "" ==> SaveForm(LoadForm(t, oddsText), parsedOdds).odds == Some(parsedOdds)
    ensures SaveForm(LoadForm(t, oddsText), parsedOdds).analysis
         == (if t.analysis == Some("") then None else t.analysis)
    ensures SaveForm(LoadForm(t, oddsText), parsedOdds).pricingTier == t.pricingTier
    ensures SaveForm(LoadForm(t, oddsText), parsedOdds).isBetBuilder == t.isBetBuilder
  {
    SaveAfterLoadKeepsPick(t.pick);
  }
}

=== FILE: grouping.dfy ===
/** Match aggregation: tips on the same match are merged into one bet-builder
    record. Models `groupTipsByMatch` of src/lib/groupTipsByMatch.ts. */
module MatchGrouping {
  import opened Wrappers
  import opened Seqs
  import opened Text
  import opened TierCatalog
  import opened Calendar
  import opened Tips
  import Sorting
  import Buckets

  /** The grouping key: home team, away team and local calendar day joined with
      a plain "-". It is a string, not a tuple, so team names that themselves
      contain "-" can produce equal keys for different matches. */
  function MatchKey(t: Tip, offset: int): (k: string)
    ensures var day := DayLabel(LocalDay(t.matchDate, offset));
            |k| >= |t.homeTeam| + |day| + 2 && k[..|t.homeTeam|] == t.homeTeam && k[|k| - |day|..] == day && '-' !in day
  {
    t.homeTeam + "-" + t.awayTeam + "-" + DayLabel(LocalDay(t.matchDate, offset))
  }

  /** For one fixture, two tips share a key exactly when they fall on the same
      local day, whatever their times of day. */
  lemma SameFixtureKey(t: Tip, u: Tip, offset: int)
    requires t.homeTeam == u.homeTeam && t.awayTeam == u.awayTeam
    ensures MatchKey(t, offset) == MatchKey(u, offset)
        <==> LocalDay(t.matchDate, offset) == LocalDay(u.matchDate, offset)
  {
    var prefix := t.homeTeam + "-" + t.awayTeam + "-";
    var dt, du := DayLabel(LocalDay(t.matchDate, offset)), DayLabel(LocalDay(u.matchDate, offset));
    if MatchKey(t, offset) == MatchKey(u, offset) {
      assert MatchKey(t, offset) == prefix + dt && MatchKey(u, offset) == prefix + du;
      assert dt == (prefix + dt)[|prefix|..] == (prefix + du)[|prefix|..] == du;
      DayLabelInjective(LocalDay(t.matchDate, offset), LocalDay(u.matchDate, offset));
    }
  }

  function KeyOf(offset: int): Tip -> string {
    t => MatchKey(t, offset)
  }

  // ----- Composite construction -----

  /** The legs one tip contributes: its pick split on the separator, each piece
      trimmed, empty pieces dropped. */
  function Legs(t: Tip): (legs: seq<string>)
    ensures forall i :: 0 <= i < |legs| ==> legs[i] != "" && IsTrimmed(legs[i])
  {
    var pieces := TrimAll(Split(t.pick));
    FilterMembers(pieces, NonEmpty);
    Filter(pieces, NonEmpty)
  }

  predicate NonEmpty(s: string) {
    s != ""
  }

  function TrimAll(parts: seq<string>): (r: seq<string>)
    ensures |r| == |parts|
    ensures forall i :: 0 <= i < |r| ==> r[i] == Trim(parts[i]) && IsTrimmed(r[i])
  {
    if |parts| == 0 then [] else [Trim(parts[0])] + TrimAll(parts[1..])
  }

  /** All legs of a group, constituent by constituent, in input order. */
  function AllLegs(g: seq<Tip>): (legs: seq<string>)
    ensures forall i :: 0 <= i < |legs| ==> legs[i] != "" && IsTrimmed(legs[i])
  {
    if |g| == 0 then [] else Legs(g[0]) + AllLegs(g[1..])
  }

  /** `groupTips.reduce((acc, tip) => acc * tip.odds, 1)`, a left fold. */
  function CombinedOdds(g: seq<Tip>): real {
    if |g| == 0 then 1.0 else CombinedOdds(g[..|g| - 1]) * g[|g| - 1].odds
  }

  /** The analyses that JavaScript's `filter(Boolean)` keeps: present and non-empty. */
  function Analyses(g: seq<Tip>): (r: seq<string>)
    ensures |r| <= |g|
    ensures forall i :: 0 <= i < |r| ==> r[i] != ""
  {
    if |g| == 0 then []
    else (if Present(g[0].analysis) then [g[0].analysis.value] else []) + Analyses(g[1..])
  }

  /** `analyses || null`: the joined analyses, or none when the join is empty,
      which happens exactly when no constituent has a non-empty analysis. */
  function CombinedAnalysis(g: seq<Tip>): (r: Option<string>)
    ensures r.None? <==> forall i :: 0 <= i < |g| ==> !Present(g[i].analysis)
    ensures r.Some? ==> r.value == Join(Analyses(g))
  {
    var joined := Join(Analyses(g));
    JoinedAnalysesEmpty(g);
    if joined == "" then None else Some(joined)
  }

  lemma JoinedAnalysesEmpty(g: seq<Tip>)
    ensures Join(Analyses(g)) == "" <==> forall i :: 0 <= i < |g| ==> !Present(g[i].analysis)
  {
    AnalysesEmpty(g);
    if |Analyses(g)| > 0 {
      JoinNonEmpty(Analyses(g));
    }
  }

  /** `tierOrder.indexOf(tip.pricing_tier)`. */
  function TipRank(t: Tip): int {
    Rank(t.pricingTier)
  }

  function RanksOf(g: seq<Tip>): (r: seq<int>)
    ensures |r| == |g|
    ensures forall i :: 0 <= i < |g| ==> r[i] == TipRank(g[i])
  {
    if |g| == 0 then [] else [TipRank(g[0])] + RanksOf(g[1..])
  }

  /** The first position holding the largest value. */
  function FirstMax(xs: seq<int>): (b: nat)
    requires |xs| > 0
    ensures b < |xs|
    ensures forall i :: 0 <= i < |xs| ==> xs[i] <= xs[b]
    ensures forall i :: 0 <= i < b ==> xs[i] < xs[b]
  {
    if |xs| == 1 then 0
    else
      var init := xs[..|xs| - 1];
      var b := FirstMax(init);
      assert forall i :: 0 <= i < |init| ==> init[i] == xs[i];
      if xs[|xs| - 1] > xs[b] then |xs| - 1 else b
  }

  /** The index of the tip that a stable sort by descending tier rank brings to
      the front: the first tip of maximal rank. */
  function BaseIndex(g: seq<Tip>): (b: nat)
    requires |g| > 0
    ensures b < |g|
    ensures forall i :: 0 <= i < |g| ==> TipRank(g[i]) <= TipRank(g[b])
    ensures forall i :: 0 <= i < b ==> TipRank(g[i]) < TipRank(g[b])
  {
    FirstMax(RanksOf(g))
  }

  /** The bet-builder record built from a group of two or more tips: every
      field of the first tip of highest tier rank, except the flattened legs,
      the product of the odds, the joined analyses, and `isBetBuilder` forced on. */
  function Composite(g: seq<Tip>): (r: Tip)
    requires |g| > 0
    ensures r.isBetBuilder
    ensures exists b :: 0 <= b < |g|
              && (forall i :: 0 <= i < |g| ==> TipRank(g[i]) <= TipRank(g[b]))
              && (forall i :: 0 <= i < b ==> TipRank(g[i]) < TipRank(g[b]))
              && r == g[b].(pick := r.pick, odds := r.odds, isBetBuilder := true, analysis := r.analysis)
    ensures r.pick == Join(AllLegs(g))
    ensures r.odds == CombinedOdds(g)
    ensures r.analysis == CombinedAnalysis(g)
  {
    var b := BaseIndex(g);
    var r := g[b].(pick := Join(AllLegs(g)),
                   odds := CombinedOdds(g),
                   isBetBuilder := true,
                   analysis := CombinedAnalysis(g));
    assert r == g[b].(pick := r.pick, odds := r.odds, isBetBuilder := true, analysis := r.analysis);
    r
  }

  /** One output record per group: a single tip passes through unchanged, and
      two or more become one bet builder carrying every leg and the product of
      the odds. */
  function MergeGroup(g: seq<Tip>): (r: Tip)
    requires |g| > 0
    ensures |g| == 1 ==> r == g[0]
    ensures |g| > 1 ==> r.isBetBuilder && r.pick == Join(AllLegs(g)) && r.odds == CombinedOdds(g)
    ensures |g| > 1 ==> exists b :: 0 <= b < |g| && r.id == g[b].id && r.pricingTier == g[b].pricingTier
  {
    if |g| == 1 then g[0] else Composite(g)
  }

  function MergeAll(gs: seq<seq<Tip>>): (r: seq<Tip>)
    requires forall j :: 0 <= j < |gs| ==> |gs[j]| > 0
    ensures |r| == |gs|
    ensures forall j :: 0 <= j < |gs| ==> r[j] == MergeGroup(gs[j])
  {
    if |gs| == 0 then [] else [MergeGroup(gs[0])] + MergeAll(gs[1..])
  }

  function MatchDateOf(t: Tip): int {
    t.matchDate
  }

  /** `groupTipsByMatch(tips)`: bucket by match key, merge each bucket, sort by
      match date, newest first. The result has one record per distinct key and
      is a rearrangement of the merged buckets. */
  function GroupTipsByMatch(tips: seq<Tip>, offset: int): (r: seq<Tip>)
    ensures Sorting.SortedDesc(r, MatchDateOf)
    ensures |r| == |Buckets.Group(tips, KeyOf(offset)).keys|
    ensures multiset(r) == multiset(MergeAll(Buckets.Group(tips, KeyOf(offset)).groups))
  {
    var b := Buckets.Group(tips, KeyOf(offset));
    Sorting.SortPermutes(MergeAll(b.groups), MatchDateOf);
    Sorting.SortDesc(MergeAll(b.groups), MatchDateOf)
  }

  // ----- Properties -----

  /** The output holds one record per distinct match key of the input. */
  lemma {:induction false} OutputCountIsDistinctKeys(tips: seq<Tip>, offset: int)
    ensures |GroupTipsByMatch(tips, offset)| == |set t | t in tips :: MatchKey(t, offset)|
  {
    var b := Buckets.Group(tips, KeyOf(offset));
    GroupKeySet(tips, offset);
    DistinctCardinality(b.keys);
  }

  /** The bucket keys are exactly the match keys of the input tips. */
  lemma GroupKeySet(tips: seq<Tip>, offset: int)
    ensures (set k | k in Buckets.Group(tips, KeyOf(offset)).keys)
         == set t | t in tips :: MatchKey(t, offset)
  {
    var key := KeyOf(offset);
    var b := Buckets.Group(tips, key);
    forall k | k in b.keys ensures exists t :: t in tips && MatchKey(t, offset) == k {
      BucketKeyOccurs(tips, offset, k);
    }
    forall t | t in tips ensures MatchKey(t, offset) in b.keys {
      var i :| 0 <= i < |tips| && tips[i] == t;
      assert key(tips[i]) in b.keys;
    }
  }

  /** Every bucket key is the match key of some input tip. */
  lemma BucketKeyOccurs(tips: seq<Tip>, offset: int, k: string)
    requires k in Buckets.Group(tips, KeyOf(offset)).keys
    ensures exists t :: t in tips && MatchKey(t, offset) == k
  {
    var key := KeyOf(offset);
    var b := Buckets.Group(tips, key);
    var j :| 0 <= j < |b.keys| && b.keys[j] == k;
    var g := b.groups[j];
    FilterMembers(tips, Buckets.HasKey(key, k));
    assert g[0] in tips && Buckets.HasKey(key, k)(g[0]);
    assert MatchKey(g[0], offset) == k;
  }

  /** A tip that shares its key with no other tip is emitted unchanged: same
      pick, same `isBetBuilder`, every field as it was. */
  lemma SoleTipPassesThrough(tips: seq<Tip>, offset: int, i: int)
    requires 0 <= i < |tips|
    requires forall m :: 0 <= m < |tips| && m != i ==> MatchKey(tips[m], offset) != MatchKey(tips[i], offset)
    ensures tips[i] in GroupTipsByMatch(tips, offset)
  {
    var key := KeyOf(offset);
    var b := Buckets.Group(tips, key);
    var j :| 0 <= j < |b.keys| && b.keys[j] == key(tips[i]);
    var g := b.groups[j];
    FilterMembers(tips, Buckets.HasKey(key, b.keys[j]));
    forall m | 0 <= m < |g| ensures g[m] == tips[i] {
      assert g[m] in tips && Buckets.HasKey(key, b.keys[j])(g[m]);
      var n :| 0 <= n < |tips| && tips[n] == g[m];
    }
    assert |g| == 1 by {
      if |g| > 1 {
        FilterMultiplicity(tips, Buckets.HasKey(key, b.keys[j]), i);
      }
    }
    var merged := MergeAll(b.groups);
    assert merged[j] == tips[i];
    assert tips[i] in multiset(merged);
  }

  /** A filter keeps a sole satisfying element at most once. */
  lemma {:induction false} FilterMultiplicity(s: seq<Tip>, p: Tip -> bool, i: int)
    requires 0 <= i < |s|
    requires forall m :: 0 <= m < |s| && m != i ==> !p(s[m])
    ensures |Filter(s, p)| <= 1
  {
    if i == 0 {
      FilterNone(s[1..], p);
    } else {
      FilterMultiplicity(s[1..], p, i - 1);
    }
  }

  /** A merged record keeps the match key of its bucket. */
  lemma MergeKeepsKey(g: seq<Tip>, offset: int, k: string)
    requires |g| > 0
    requires forall i :: 0 <= i < |g| ==> MatchKey(g[i], offset) == k
    ensures MatchKey(MergeGroup(g), offset) == k
  {
    if |g| > 1 {
      var base := g[BaseIndex(g)];
      assert MatchKey(Composite(g), offset) == MatchKey(base, offset);
    }
  }

  /** The merged buckets carry pairwise distinct match keys. */
  lemma MergedKeysDistinct(tips: seq<Tip>, offset: int)
    ensures DistinctBy(MergeAll(Buckets.Group(tips, KeyOf(offset)).groups), KeyOf(offset))
  {
    var key := KeyOf(offset);
    var b := Buckets.Group(tips, key);
    var merged := MergeAll(b.groups);
    forall j | 0 <= j < |merged| ensures key(merged[j]) == b.keys[j] {
      var g := b.groups[j];
      FilterMembers(tips, Buckets.HasKey(key, b.keys[j]));
      forall i | 0 <= i < |g| ensures MatchKey(g[i], offset) == b.keys[j] {
        assert Buckets.HasKey(key, b.keys[j])(g[i]);
      }
      MergeKeepsKey(g, offset, b.keys[j]);
    }
  }

  /** On sorted input with pairwise distinct keys grouping is the identity. */
  lemma GroupingDistinctSorted(tips: seq<Tip>, offset: int)
    requires DistinctBy(tips, KeyOf(offset))
    requires Sorting.SortedDesc(tips, MatchDateOf)
    ensures GroupTipsByMatch(tips, offset) == tips
  {
    var key := KeyOf(offset);
    Buckets.GroupDistinct(tips, key);
    var b := Buckets.Group(tips, key);
    assert MergeAll(b.groups) == tips;
    Sorting.SortSortedIsIdentity(tips, MatchDateOf);
  }

  /** Grouping is idempotent: the records it emits have pairwise distinct keys
      and are sorted, so grouping them again changes nothing. */
  lemma {:induction false} GroupingIdempotent(tips: seq<Tip>, offset: int)
    ensures GroupTipsByMatch(GroupTipsByMatch(tips, offset), offset) == GroupTipsByMatch(tips, offset)
  {
    var key := KeyOf(offset);
    var merged := MergeAll(Buckets.Group(tips, key).groups);
    MergedKeysDistinct(tips, offset);
    Sorting.SortKeepsDistinct(merged, MatchDateOf, key);
    GroupingDistinctSorted(GroupTipsByMatch(tips, offset), offset);
  }

  // ----- Properties of the composite -----

  /** The combined odds are a product: merging two runs of tips multiplies their odds. */
  lemma {:induction false} CombinedOddsConcat(a: seq<Tip>, b: seq<Tip>)
    ensures CombinedOdds(a + b) == CombinedOdds(a) * CombinedOdds(b)
  {
    if |b| == 0 {
      assert a + b == a;
    } else {
      var b' := b[..|b| - 1];
      assert (a + b)[..|a + b| - 1] == a + b';
      CombinedOddsConcat(a, b');
    }
  }

  /** Positive odds combine to positive odds. */
  lemma {:induction false} CombinedOddsPositive(g: seq<Tip>)
    requires forall i :: 0 <= i < |g| ==> g[i].odds > 0.0
    ensures CombinedOdds(g) > 0.0
  {
    if |g| > 0 {
      CombinedOddsPositive(g[..|g| - 1]);
    }
  }

  /** A single zero price anywhere in the group zeroes the product. */
  lemma {:induction false} CombinedOddsZero(g: seq<Tip>, i: int)
    requires 0 <= i < |g| && g[i].odds == 0.0
    ensures CombinedOdds(g) == 0.0
  {
    var init := g[..|g| - 1];
    if i < |init| {
      assert init[i] == g[i];
      CombinedOddsZero(init, i);
    }
  }

  /** The seed 1 of the fold is neutral: a lone tip keeps its odds. */
  lemma CombinedOddsSingle(t: Tip)
    ensures CombinedOdds([t]) == t.odds
  {
    assert [t][..0] == [];
  }

  /** With every price at least evens, the combined odds are at least 1 and at
      least each constituent's odds. */
  lemma {:induction false} CombinedOddsDominates(g: seq<Tip>)
    requires forall i :: 0 <= i < |g| ==> g[i].odds >= 1.0
    ensures CombinedOdds(g) >= 1.0
    ensures forall i :: 0 <= i < |g| ==> CombinedOdds(g) >= g[i].odds
  {
    if |g| > 0 {
      var init := g[..|g| - 1];
      CombinedOddsDominates(init);
      var last := g[|g| - 1].odds;
      var c := CombinedOdds(init);
      assert CombinedOdds(g) == c * last;
      assert c * last - c == c * (last - 1.0);
      assert c * (last - 1.0) >= 0.0;
      assert c * last - last == (c - 1.0) * last;
      assert (c - 1.0) * last >= 0.0;
      forall i | 0 <= i < |g| ensures CombinedOdds(g) >= g[i].odds {
        if i < |init| {
          assert init[i] == g[i];
        }
      }
    }
  }

  /** The composite's legs are those of its constituents, constituent after constituent. */
  lemma {:induction false} AllLegsConcat(a: seq<Tip>, b: seq<Tip>)
    ensures AllLegs(a + b) == AllLegs(a) + AllLegs(b)
  {
    if |a| == 0 {
      assert a + b == b;
    } else {
      assert (a + b)[0] == a[0];
      assert (a + b)[1..] == a[1..] + b;
      AllLegsConcat(a[1..], b);
    }
  }

  lemma {:induction false} AnalysesEmpty(g: seq<Tip>)
    ensures |Analyses(g)| == 0 <==> forall i :: 0 <= i < |g| ==> !Present(g[i].analysis)
  {
    if |g| > 0 {
      AnalysesEmpty(g[1..]);
      assert forall i :: 1 <= i < |g| ==> g[i] == g[1..][i - 1];
    }
  }

  /** Key collision as written: a "-" inside a team name makes two different
      fixtures on the same day share a key, so they are merged. */
  lemma KeyCollision(t: Tip, u: Tip, offset: int)
    requires t.homeTeam == "A-B" && t.awayTeam == "C"
    requires u.homeTeam == "A" && u.awayTeam == "B-C"
    requires LocalDay(t.matchDate, offset) == LocalDay(u.matchDate, offset)
    ensures MatchKey(t, offset) == MatchKey(u, offset)
  {
    var day := DayLabel(LocalDay(t.matchDate, offset));
    assert "A-B" + "-" + "C" + "-" + day == "A" + "-" + "B-C" + "-" + day;
  }
}

=== FILE: paywall.dfy ===
/** What a visitor of the tips page may see: the unlock rule, the tier
    filter, the parts of a tip card that depend on it, and the wording of a
    tier's group card. */
module Paywall {
  import opened Wrappers
  import opened Seqs
  import opened Text
  import opened TierCatalog
  import opened Tips

  /** A tip is open to the visitor when it is Free or its id is among the
      visitor's purchases. Neither the visitor's role nor any tier grant is
      consulted. */
  function IsUnlocked(t: Tip, purchased: seq<string>): (open: bool)
    ensures t.pricingTier == FreeTier ==> open
    ensures open <==> t.pricingTier == FreeTier
                      || exists i :: 0 <= i < |purchased| && purchased[i] == t.id
  {
    t.pricingTier == FreeTier || t.id in purchased
  }

  /** Purchases only ever open tips: a longer purchase list unlocks at least as much. */
  lemma UnlockGrowsWithPurchases(t: Tip, purchased: seq<string>, more: seq<string>)
    requires IsUnlocked(t, purchased)
    ensures IsUnlocked(t, purchased + more) && IsUnlocked(t, more + purchased)
  {
    if t.pricingTier != FreeTier {
      assert t.id in purchased + more;
      assert t.id in more + purchased;
    }
  }

  /** The tier filter's value that shows every tier. */
  const AllTiers: string := "all"

  function OfTier(tier: string): Tip -> bool {
    (t: Tip) => t.pricingTier == tier
  }

  /** The tips shown under the selected tier filter, in the loaded order. */
  function FilterTips(tips: seq<Tip>, selected: string): (r: seq<Tip>)
    ensures selected == AllTiers ==> r == tips
    ensures selected != AllTiers ==>
              (forall i :: 0 <= i < |r| ==> r[i].pricingTier == selected && r[i] in tips)
              && (forall i :: 0 <= i < |tips| && tips[i].pricingTier == selected ==> tips[i] in r)
    ensures IsSubsequence(r, tips)
  {
    if selected == AllTiers then
      FilterAll(tips, (t: Tip) => true);
      FilterIsSubsequence(tips, (t: Tip) => true);
      tips
    else
      FilterMembers(tips, OfTier(selected));
      FilterIsSubsequence(tips, OfTier(selected));
      Filter(tips, OfTier(selected))
  }

  /** Selecting a tier and then the same tier again shows the same tips. */
  lemma FilterTipsIdempotent(tips: seq<Tip>, selected: string)
    ensures FilterTips(FilterTips(tips, selected), selected) == FilterTips(tips, selected)
  {
    if selected != AllTiers {
      var r := FilterTips(tips, selected);
      FilterAll(r, OfTier(selected));
    }
  }

  /** What a tip card shows besides the fixed fields. `buyPrice` is the price
      on the buy button when there is one. */
  datatype CardView = CardView(
    lockedOverlay: bool,
    buyPrice: Option<nat>,
    analysis: Option<string>,
    proofImage: Option<string>,
    priceBadge: string)

  /** The price badge: "Darmowy" on a Free tip, otherwise the price in złoty. */
  function PriceBadge(tier: string): (s: string)
    ensures tier == FreeTier <==> s == "Darmowy"
  {
    if tier == FreeTier then "Darmowy" else NatToString(Price(tier)) + " zł"
  }

  /** The card of a tip. `showBuyButton` defaults to true in the source and
      `hasOnBuy` says whether a buy handler was passed. */
  function Card(t: Tip, unlocked: bool, showBuyButton: bool, hasOnBuy: bool): (c: CardView)
    ensures c.lockedOverlay <==> !unlocked && t.pricingTier != FreeTier
    ensures c.buyPrice.Some? <==> c.lockedOverlay && showBuyButton && hasOnBuy
    ensures c.buyPrice.Some? ==> c.buyPrice.value == Price(t.pricingTier)
    ensures c.analysis.Some? <==> Present(t.analysis) && (unlocked || t.pricingTier == FreeTier)
    ensures c.analysis.Some? ==> c.analysis == t.analysis
    ensures c.proofImage.Some? <==> t.status == Won && Present(t.proofImageUrl)
    ensures c.proofImage.Some? ==> c.proofImage == t.proofImageUrl
  {
    var isFree := t.pricingTier == FreeTier;
    var overlay := !unlocked && !isFree;
    CardView(
      overlay,
      if overlay && showBuyButton && hasOnBuy then Some(Price(t.pricingTier)) else None,
      if Present(t.analysis) && (unlocked || isFree) then t.analysis else None,
      if t.status == Won && Present(t.proofImageUrl) then t.proofImageUrl else None,
      PriceBadge(t.pricingTier))
  }

  /** The card as the tips page renders it, unlocked by the page's rule: it is
      covered and offers a buy button exactly when the tip is locked, and shows
      a present analysis exactly when it is unlocked. */
  function PageCard(t: Tip, purchased: seq<string>): (c: CardView)
    ensures c.lockedOverlay <==> !IsUnlocked(t, purchased)
    ensures c.buyPrice.Some? <==> !IsUnlocked(t, purchased)
    ensures c.analysis.Some? <==> Present(t.analysis) && IsUnlocked(t, purchased)
  {
    Card(t, IsUnlocked(t, purchased), true, true)
  }

  /** On the tips page a Free tip is never covered and always shows its analysis. */
  lemma FreeTipIsOpen(t: Tip, purchased: seq<string>)
    requires t.pricingTier == FreeTier
    ensures !PageCard(t, purchased).lockedOverlay && PageCard(t, purchased).buyPrice.None?
    ensures Present(t.analysis) ==> PageCard(t, purchased).analysis == t.analysis
  {
  }

  /** On the tips page a paid tip the visitor has not bought is covered, offers
      itself for the catalogue price, and hides its analysis; a purchased one
      shows everything. */
  lemma PaidTipBehindOverlay(t: Tip, purchased: seq<string>)
    requires t.pricingTier in GrantableTiers
    ensures t.id !in purchased ==>
              PageCard(t, purchased).lockedOverlay
              && PageCard(t, purchased).buyPrice == Some(Price(t.pricingTier))
              && 10 <= Price(t.pricingTier) <= 100
              && PageCard(t, purchased).analysis.None?
    ensures t.id in purchased ==> !PageCard(t, purchased).lockedOverlay
  {
    assert t.pricingTier in PricingTiers && t.pricingTier != FreeTier by {
      var k :| 0 <= k < |GrantableTiers| && GrantableTiers[k] == t.pricingTier;
      assert GrantableTiers[k] == PricingTiers[k + 1];
    }
  }

  /** A paid tip whose tier is not in the catalogue is covered but offered for 0 zł. */
  lemma UnknownTierOfferedFree(t: Tip, purchased: seq<string>)
    requires t.pricingTier !in PricingTiers && t.id !in purchased
    ensures PageCard(t, purchased).lockedOverlay && PageCard(t, purchased).buyPrice == Some(0)
  {
  }

  // ----- the tier group card -----

  /** A display lookup table: the Polish phrase after the count of tips,
      singular for 1, the paucal form for 2 to 4, the genitive plural
      otherwise, 22 to 24 included. */
  function CountPhrase(count: int): (s: string)
    ensures count == 1 <==> s == "dostępny typ"
    ensures 1 < count < 5 <==> s == "dostępne typy"
    ensures (count < 1 || count >= 5) <==> s == "dostępnych typów"
  {
    if count == 1 then "dostępny typ"
    else if count > 1 && count < 5 then "dostępne typy"
    else "dostępnych typów"
  }

  /** A display lookup table: the badge of a group card reads "DARMOWE" for
      the Free label and the label itself otherwise. */
  function BadgeText(priceLabel: string): (s: string)
    ensures s == "DARMOWE" <==> priceLabel == "Free" || priceLabel == "DARMOWE"
    ensures priceLabel != "Free" ==> s == priceLabel
  {
    if priceLabel == "Free" then "DARMOWE" else priceLabel
  }
}

=== FILE: scenarios.dfy ===
/** How merging treats the legs of its constituents: a pick made of bar-free,
    trimmed legs keeps exactly those legs, merging concatenates them in input
    order, and a pair of tips on one match collapses into one bet builder. */
module PairMerging {
  import opened Seqs
  import opened Text
  import opened TierCatalog
  import opened Tips
  import opened Calendar
  import Sorting
  import Buckets
  import opened MatchGrouping

  /** One leg as the editor writes it: non-empty, trimmed, no bar. */
  predicate IsLeg(s: string) {
    s != "" && IsTrimmed(s) && '|' !in s
  }

  /** Trimming leaves legs as they are. */
  lemma TrimAllLegs(parts: seq<string>)
    requires forall i :: 0 <= i < |parts| ==> IsLeg(parts[i])
    ensures TrimAll(parts) == parts
  {
    var trimmed := TrimAll(parts);
    forall i | 0 <= i < |parts| ensures trimmed[i] == parts[i] {
      TrimTrimmed(parts[i]);
    }
  }

  /** A pick written as legs joined by the separator has exactly those legs. */
  lemma LegsOfJoin(t: Tip, parts: seq<string>)
    requires |parts| >= 1 && t.pick == Join(parts)
    requires forall i :: 0 <= i < |parts| ==> IsLeg(parts[i])
    ensures Legs(t) == parts
  {
    SplitJoin(parts);
    TrimAllLegs(parts);
    assert forall i :: 0 <= i < |parts| ==> NonEmpty(parts[i]);
    FilterAll(parts, NonEmpty);
  }

  /** A pick that is one leg is its own only leg. */
  lemma SingleLeg(t: Tip)
    requires IsLeg(t.pick)
    ensures Legs(t) == [t.pick]
  {
    LegsOfJoin(t, [t.pick]);
  }

  lemma AllLegsPair(t: Tip, u: Tip)
    ensures AllLegs([t, u]) == Legs(t) + Legs(u)
  {
    AllLegsConcat([t], [u]);
    assert [t] + [u] == [t, u];
    assert AllLegs([t]) == Legs(t) by {
      assert [t][1..] == [];
    }
    assert AllLegs([u]) == Legs(u) by {
      assert [u][1..] == [];
    }
  }

  /** Merging two constituents whose picks are already joined legs flattens
      them: the composite pick is the first pick, one separator, the second
      pick, so "1 | BTTS" with "Over 2.5" gives "1 | BTTS | Over 2.5" and never
      a doubled or empty leg. */
  lemma PairPickFlattens(t: Tip, u: Tip, ps: seq<string>, qs: seq<string>)
    requires |ps| >= 1 && t.pick == Join(ps) && forall i :: 0 <= i < |ps| ==> IsLeg(ps[i])
    requires |qs| >= 1 && u.pick == Join(qs) && forall i :: 0 <= i < |qs| ==> IsLeg(qs[i])
    ensures AllLegs([t, u]) == ps + qs
    ensures Composite([t, u]).pick == t.pick + Separator + u.pick
  {
    LegsOfJoin(t, ps);
    LegsOfJoin(u, qs);
    AllLegsPair(t, u);
    JoinConcat(ps, qs);
  }

  /** The composite odds of a pair are the product of the two odds. */
  lemma PairOdds(t: Tip, u: Tip)
    ensures Composite([t, u]).odds == t.odds * u.odds
  {
    PairCombinedOdds(t, u);
  }

  lemma PairCombinedOdds(t: Tip, u: Tip)
    ensures CombinedOdds([t, u]) == t.odds * u.odds
  {
    var g := [t, u];
    assert g[..1] == [t] && g[1] == u;
    assert [t][..0] == [];
    assert CombinedOdds([t]) == t.odds;
  }

  /** The base of a pair is the second tip only when it ranks strictly higher;
      on a tie the first tip wins. */
  lemma PairBase(t: Tip, u: Tip)
    ensures BaseIndex([t, u]) == if TipRank(u) > TipRank(t) then 1 else 0
  {
    assert [t, u][0] == t && [t, u][1] == u;
  }

  /** When the first tip ranks at least as high, the composite keeps its id and tier. */
  lemma PairKeepsFirst(t: Tip, u: Tip)
    requires TipRank(u) <= TipRank(t)
    ensures Composite([t, u]).id == t.id && Composite([t, u]).pricingTier == t.pricingTier
  {
    PairBase(t, u);
  }

  lemma FreeBelowTwenty()
    ensures Rank(FreeTier) < Rank("20 PLN")
  {
    RankOfCatalogue(2);
    RankOfCatalogue(0);
  }

  /** Two tips on the same fixture and local day, at any times of that day,
      leave one record, their composite. */
  lemma SameMatchOneRecord(t: Tip, u: Tip, offset: int)
    requires t.homeTeam == u.homeTeam && t.awayTeam == u.awayTeam
    requires LocalDay(t.matchDate, offset) == LocalDay(u.matchDate, offset)
    ensures GroupTipsByMatch([t, u], offset) == [Composite([t, u])]
  {
    var key := KeyOf(offset);
    assert key(u) == key(t);
    Buckets.GroupPair(t, u, key);
    var merged := MergeAll([[t, u]]);
    assert merged == [Composite([t, u])];
    Sorting.SortSortedIsIdentity(merged, MatchDateOf);
  }

  lemma PairOfSingles(t: Tip, u: Tip)
    requires IsLeg(t.pick) && IsLeg(u.pick)
    ensures Composite([t, u]).pick == t.pick + Separator + u.pick
  {
    assert Join([t.pick]) == t.pick && Join([u.pick]) == u.pick;
    PairPickFlattens(t, u, [t.pick], [u.pick]);
  }

  lemma PaidBaseOverFree(t: Tip, u: Tip)
    requires t.pricingTier == "20 PLN" && u.pricingTier == FreeTier
    ensures Composite([t, u]).pricingTier == "20 PLN" && Composite([t, u]).id == t.id
  {
    FreeBelowTwenty();
    PairKeepsFirst(t, u);
  }

  /** A single "1" at 2.0 in the 20 PLN tier and a single "BTTS" at 1.5 in the
      Free tier on the same match become one bet builder "1 | BTTS" at 3.0,
      carrying the 20 PLN tip's id and tier. */
  lemma TwoSinglesMerge(t: Tip, u: Tip, offset: int)
    requires t.homeTeam == u.homeTeam && t.awayTeam == u.awayTeam
    requires LocalDay(t.matchDate, offset) == LocalDay(u.matchDate, offset)
    requires IsLeg(t.pick) && IsLeg(u.pick)
    requires t.pricingTier == "20 PLN" && u.pricingTier == FreeTier
    ensures GroupTipsByMatch([t, u], offset) == [Composite([t, u])]
    ensures Composite([t, u]).pick == t.pick + Separator + u.pick
    ensures Composite([t, u]).odds == t.odds * u.odds
    ensures Composite([t, u]).pricingTier == "20 PLN" && Composite([t, u]).id == t.id
    ensures Composite([t, u]).isBetBuilder
  {
    SameMatchOneRecord(t, u, offset);
    PairOfSingles(t, u);
    PairOdds(t, u);
    PaidBaseOverFree(t, u);
  }
}

=== FILE: seqs.dfy ===
/** Order-preserving filtering of sequences, the model of JavaScript's
    `Array.prototype.filter`, with the facts about it the rest of the model uses. */
module Seqs {

  /** The elements of `s` satisfying `p`, in their original order. */
  function Filter<T>(s: seq<T>, p: T -> bool): (r: seq<T>)
    ensures |r| <= |s|
  {
    if |s| == 0 then []
    else (if p(s[0]) then [s[0]] else []) + Filter(s[1..], p)
  }

  /** What `Filter` keeps: exactly the elements of `s` that satisfy `p`. */
  lemma {:induction false} FilterMembers<T>(s: seq<T>, p: T -> bool)
    ensures forall i :: 0 <= i < |Filter(s, p)| ==> Filter(s, p)[i] in s && p(Filter(s, p)[i])
    ensures forall i :: 0 <= i < |s| && p(s[i]) ==> s[i] in Filter(s, p)
  {
    if |s| > 0 {
      FilterMembers(s[1..], p);
      var r := Filter(s, p);
      var head: seq<T> := if p(s[0]) then [s[0]] else [];
      assert r == head + Filter(s[1..], p);
      forall i | 0 <= i < |r| ensures r[i] in s && p(r[i]) {
        if i >= |head| {
          assert r[i] == Filter(s[1..], p)[i - |head|];
        }
      }
      forall i | 0 <= i < |s| && p(s[i]) ensures s[i] in r {
        if i > 0 {
          assert s[i] == s[1..][i - 1];
        }
      }
    }
  }

  /** Filtering distributes over concatenation. */
  lemma {:induction false} FilterConcat<T>(a: seq<T>, b: seq<T>, p: T -> bool)
    ensures Filter(a + b, p) == Filter(a, p) + Filter(b, p)
  {
    if |a| == 0 {
      assert a + b == b;
    } else {
      assert (a + b)[0] == a[0];
      assert (a + b)[1..] == a[1..] + b;
      FilterConcat(a[1..], b, p);
      var head: seq<T> := if p(a[0]) then [a[0]] else [];
      assert Filter(a + b, p) == head + Filter(a[1..] + b, p);
      assert Filter(a, p) == head + Filter(a[1..], p);
    }
  }

  lemma FilterSingleton<T>(x: T, p: T -> bool)
    ensures Filter([x], p) == if p(x) then [x] else []
  {
    assert [x][1..] == [];
  }

  /** Filtering a list whose elements all satisfy `p` returns it unchanged. */
  lemma {:induction false} FilterAll<T>(s: seq<T>, p: T -> bool)
    requires forall i :: 0 <= i < |s| ==> p(s[i])
    ensures Filter(s, p) == s
  {
    if |s| > 0 {
      FilterAll(s[1..], p);
    }
  }

  /** Filtering a list none of whose elements satisfies `p` gives the empty list. */
  lemma {:induction false} FilterNone<T>(s: seq<T>, p: T -> bool)
    requires forall i :: 0 <= i < |s| ==> !p(s[i])
    ensures Filter(s, p) == []
  {
    if |s| > 0 {
      FilterNone(s[1..], p);
    }
  }

  /** Two tests that agree on every element of `s` keep the same elements. */
  lemma {:induction false} FilterSameOn<T>(s: seq<T>, p: T -> bool, q: T -> bool)
    requires forall i :: 0 <= i < |s| ==> p(s[i]) == q(s[i])
    ensures Filter(s, p) == Filter(s, q)
  {
    if |s| > 0 {
      FilterSameOn(s[1..], p, q);
    }
  }

  /** `r` is obtained from `s` by deleting elements, keeping the order. */
  predicate IsSubsequence<T(==)>(r: seq<T>, s: seq<T>)
    decreases |s|
  {
    if |r| == 0 then true
    else if |s| == 0 then false
    else (r[0] == s[0] && IsSubsequence(r[1..], s[1..])) || IsSubsequence(r, s[1..])
  }

  /** A filter result is a subsequence of its input. */
  lemma {:induction false} FilterIsSubsequence<T>(s: seq<T>, p: T -> bool)
    ensures IsSubsequence(Filter(s, p), s)
  {
    if |s| > 0 {
      FilterIsSubsequence(s[1..], p);
      var r := Filter(s, p);
      if p(s[0]) {
        assert r[0] == s[0] && r[1..] == Filter(s[1..], p);
      } else {
        assert r == Filter(s[1..], p);
      }
    }
  }

  /** The elements of `s` are pairwise distinct. */
  predicate NoDuplicates<T(==)>(s: seq<T>) {
    forall i, j :: 0 <= i < j < |s| ==> s[i] != s[j]
  }

  /** No two elements of `s` share an image under `f`. */
  predicate DistinctBy<T, K(==)>(s: seq<T>, f: T -> K) {
    forall i, j :: 0 <= i < j < |s| ==> f(s[i]) != f(s[j])
  }

  /** A sequence without duplicates has exactly as many distinct elements as positions. */
  lemma {:induction false} DistinctCardinality<T>(s: seq<T>)
    requires NoDuplicates(s)
    ensures |set x | x in s| == |s|
  {
    if |s| > 0 {
      var rest := s[1..];
      assert NoDuplicates(rest) by {
        forall i, j | 0 <= i < j < |rest| ensures rest[i] != rest[j] {
          assert rest[i] == s[i + 1] && rest[j] == s[j + 1];
        }
      }
      DistinctCardinality(rest);
      assert s[0] !in rest by {
        forall k | 0 <= k < |rest| ensures rest[k] != s[0] {
          assert rest[k] == s[k + 1];
        }
      }
      assert (set x | x in s) == (set x | x in rest) + {s[0]} by {
        assert s == [s[0]] + rest;
      }
    }
  }
}

=== FILE: sorting.dfy ===
/** A stable sort in descending order of an integer key: the model of
    `Array.prototype.sort` (stable since ECMAScript 2019) called with a
    comparator `(a, b) => key(b) - key(a)`. */
module Sorting {
  import opened Seqs

  /** Each element's key is at least the next one's. */
  predicate SortedDesc<T>(s: seq<T>, key: T -> int) {
    |s| <= 1 || (key(s[0]) >= key(s[1]) && SortedDesc(s[1..], key))
  }

  /** A descending list is ordered pairwise, not just between neighbours. */
  lemma {:induction false} SortedDescOrdered<T>(s: seq<T>, key: T -> int)
    requires SortedDesc(s, key)
    ensures forall i, j :: 0 <= i < j < |s| ==> key(s[i]) >= key(s[j])
  {
    if |s| > 1 {
      SortedDescOrdered(s[1..], key);
      forall i, j | 0 <= i < j < |s| ensures key(s[i]) >= key(s[j]) {
        assert s[j] == s[1..][j - 1];
        if i > 0 {
          assert s[i] == s[1..][i - 1];
        } else if j > 1 {
          assert s[1] == s[1..][0];
        }
      }
    }
  }

  /** A prefix of a descending list is descending. */
  lemma {:induction false} SortedPrefix<T>(s: seq<T>, key: T -> int, n: nat)
    requires SortedDesc(s, key) && n <= |s|
    ensures SortedDesc(s[..n], key)
  {
    if n > 1 {
      SortedPrefix(s[1..], key, n - 1);
      assert s[..n][1..] == s[1..][..n - 1];
    }
  }

  /** The elements of `s` whose key is `v`. */
  function KeyIs<T>(key: T -> int, v: int): T -> bool {
    y => key(y) == v
  }

  /** Insert `x` into a descending list, in front of every element whose key is not larger. */
  function Insert<T>(x: T, s: seq<T>, key: T -> int): (r: seq<T>)
    requires SortedDesc(s, key)
    ensures SortedDesc(r, key)
    ensures |r| == |s| + 1
    ensures key(r[0]) == if |s| == 0 || key(x) >= key(s[0]) then key(x) else key(s[0])
  {
    if |s| == 0 then [x]
    else if key(x) >= key(s[0]) then
      ConsSorted(x, s, key);
      [x] + s
    else
      var rest := Insert(x, s[1..], key);
      ConsSorted(s[0], rest, key);
      [s[0]] + rest
  }

  /** Putting `y` in front of a descending list whose head is not larger keeps it descending. */
  lemma ConsSorted<T>(y: T, s: seq<T>, key: T -> int)
    requires SortedDesc(s, key)
    requires |s| == 0 || key(s[0]) <= key(y)
    ensures SortedDesc([y] + s, key)
  {
    assert ([y] + s)[1..] == s;
  }

  /** Inserting adds exactly `x`: the result is a permutation of `s` plus `x`. */
  lemma InsertPermutes<T>(x: T, s: seq<T>, key: T -> int)
    requires SortedDesc(s, key)
    ensures multiset(Insert(x, s, key)) == multiset(s) + multiset{x}
    ensures forall y :: y in Insert(x, s, key) ==> y == x || y in s
  {
    InsertMultiset(x, s, key);
    var r := Insert(x, s, key);
    forall y | y in r ensures y == x || y in s {
      assert y in multiset(r);
    }
  }

  lemma {:induction false} InsertMultiset<T>(x: T, s: seq<T>, key: T -> int)
    requires SortedDesc(s, key)
    ensures multiset(Insert(x, s, key)) == multiset(s) + multiset{x}
  {
    if |s| > 0 {
      if key(x) >= key(s[0]) {
        assert Insert(x, s, key) == [x] + s;
      } else {
        var rest := Insert(x, s[1..], key);
        InsertMultiset(x, s[1..], key);
        assert Insert(x, s, key) == [s[0]] + rest;
        assert multiset([s[0]] + rest) == multiset{s[0]} + multiset(rest);
        assert s == [s[0]] + s[1..];
        assert multiset(s) == multiset{s[0]} + multiset(s[1..]);
      }
    }
  }

  /** Insertion sort, newest-first when the key is a timestamp. */
  function SortDesc<T>(s: seq<T>, key: T -> int): (r: seq<T>)
    ensures SortedDesc(r, key)
    ensures |r| == |s|
  {
    if |s| == 0 then [] else Insert(s[0], SortDesc(s[1..], key), key)
  }

  /** The sort is a permutation: it neither drops, adds nor duplicates anything. */
  lemma SortPermutes<T>(s: seq<T>, key: T -> int)
    ensures multiset(SortDesc(s, key)) == multiset(s)
    ensures forall y :: y in SortDesc(s, key) <==> y in s
  {
    SortMultiset(s, key);
    var r := SortDesc(s, key);
    forall y ensures y in r <==> y in s {
      assert y in r <==> y in multiset(r);
      assert y in s <==> y in multiset(s);
    }
  }

  lemma {:induction false} SortMultiset<T>(s: seq<T>, key: T -> int)
    ensures multiset(SortDesc(s, key)) == multiset(s)
  {
    if |s| > 0 {
      SortMultiset(s[1..], key);
      InsertPermutes(s[0], SortDesc(s[1..], key), key);
      assert s == [s[0]] + s[1..];
    }
  }

  /** Inserting keeps the relative order of the elements sharing any one key,
      with the new element first among its equals. */
  lemma {:induction false} InsertStable<T>(x: T, s: seq<T>, key: T -> int, v: int)
    requires SortedDesc(s, key)
    ensures Filter(Insert(x, s, key), KeyIs(key, v))
         == (if key(x) == v then [x] else []) + Filter(s, KeyIs(key, v))
  {
    var p := KeyIs(key, v);
    var lead: seq<T> := if key(x) == v then [x] else [];
    if |s| == 0 {
      FilterSingleton(x, p);
      assert Insert(x, s, key) == [x];
      assert Filter(s, p) == [];
      assert Filter(Insert(x, s, key), p) == lead + Filter(s, p);
    } else if key(x) >= key(s[0]) {
      FilterConcat([x], s, p);
      FilterSingleton(x, p);
      assert Insert(x, s, key) == [x] + s;
      assert Filter(Insert(x, s, key), p) == lead + Filter(s, p);
    } else {
      InsertStable(x, s[1..], key, v);
      InsertBehindHead(x, s, key, v);
    }
  }

  /** The step of `InsertStable` where `x` goes behind the head of `s`. */
  lemma InsertBehindHead<T>(x: T, s: seq<T>, key: T -> int, v: int)
    requires SortedDesc(s, key) && |s| > 0 && key(x) < key(s[0])
    requires Filter(Insert(x, s[1..], key), KeyIs(key, v))
          == (if key(x) == v then [x] else []) + Filter(s[1..], KeyIs(key, v))
    ensures Filter(Insert(x, s, key), KeyIs(key, v))
         == (if key(x) == v then [x] else []) + Filter(s, KeyIs(key, v))
  {
    if key(x) == v {
      InsertBehindEqual(x, s, key, v);
    } else {
      assert [] + Filter(s[1..], KeyIs(key, v)) == Filter(s[1..], KeyIs(key, v));
      InsertBehindOther(x, s, key, v);
      assert [] + Filter(s, KeyIs(key, v)) == Filter(s, KeyIs(key, v));
    }
  }

  lemma InsertBehindEqual<T>(x: T, s: seq<T>, key: T -> int, v: int)
    requires SortedDesc(s, key) && |s| > 0 && key(x) < key(s[0]) && key(x) == v
    requires Filter(Insert(x, s[1..], key), KeyIs(key, v)) == [x] + Filter(s[1..], KeyIs(key, v))
    ensures Filter(Insert(x, s, key), KeyIs(key, v)) == [x] + Filter(s, KeyIs(key, v))
  {
    var p := KeyIs(key, v);
    var tail := s[1..];
    var rest := Insert(x, tail, key);
    var r := [s[0]] + rest;
    assert Insert(x, s, key) == r;
    assert r[0] == s[0] && r[1..] == rest;
    assert !p(s[0]);
    assert Filter(r, p) == Filter(rest, p);
    assert Filter(s, p) == Filter(tail, p);
  }
  lemma InsertBehindOther<T>(x: T, s: seq<T>, key: T -> int, v: int)
    requires SortedDesc(s, key) && |s| > 0 && key(x) < key(s[0]) && key(x) != v
    requires Filter(Insert(x, s[1..], key), KeyIs(key, v)) == Filter(s[1..], KeyIs(key, v))
    ensures Filter(Insert(x, s, key), KeyIs(key, v)) == Filter(s, KeyIs(key, v))
  {
    var p := KeyIs(key, v);
    var tail := s[1..];
    var rest := Insert(x, tail, key);
    var r := [s[0]] + rest;
    assert Insert(x, s, key) == r;
    assert r[0] == s[0] && r[1..] == rest;
    var head: seq<T> := if p(s[0]) then [s[0]] else [];
    assert Filter(r, p) == head + Filter(rest, p);
    assert Filter(s, p) == head + Filter(tail, p);
  }

  /** The sort is stable: for every key value, the elements carrying it appear
      in the output in the order they had in the input. */
  lemma {:induction false} SortStable<T>(s: seq<T>, key: T -> int, v: int)
    ensures Filter(SortDesc(s, key), KeyIs(key, v)) == Filter(s, KeyIs(key, v))
  {
    if |s| > 0 {
      SortStable(s[1..], key, v);
      InsertStable(s[0], SortDesc(s[1..], key), key, v);
    }
  }

  /** Sorting an already sorted list leaves it as it is. */
  lemma {:induction false} SortSortedIsIdentity<T>(s: seq<T>, key: T -> int)
    requires SortedDesc(s, key)
    ensures SortDesc(s, key) == s
  {
    if |s| > 0 {
      SortSortedIsIdentity(s[1..], key);
      assert s == [s[0]] + s[1..];
    }
  }

  /** Sorting keeps images under any function distinct. */
  lemma {:induction false} SortKeepsDistinct<T, K>(s: seq<T>, key: T -> int, f: T -> K)
    requires DistinctBy(s, f)
    ensures DistinctBy(SortDesc(s, key), f)
  {
    if |s| > 0 {
      var tail := s[1..];
      TailDistinct(s, f);
      SortKeepsDistinct(tail, key, f);
      var rest := SortDesc(tail, key);
      SortPermutes(tail, key);
      forall i | 0 <= i < |rest| ensures f(rest[i]) != f(s[0]) {
        assert rest[i] in multiset(rest);
        assert rest[i] in multiset(tail);
        var k :| 0 <= k < |tail| && tail[k] == rest[i];
        assert s[k + 1] == rest[i];
      }
      InsertKeepsDistinct(s[0], rest, key, f);
    }
  }

  lemma InsertKeepsDistinct<T, K>(x: T, s: seq<T>, key: T -> int, f: T -> K)
    requires SortedDesc(s, key) && DistinctBy(s, f)
    requires forall i :: 0 <= i < |s| ==> f(s[i]) != f(x)
    ensures DistinctBy(Insert(x, s, key), f)
  {
    if |s| == 0 || key(x) >= key(s[0]) {
      ConsDistinct(x, s, f);
    } else {
      var tail := s[1..];
      TailDistinct(s, f);
      InsertKeepsDistinct(x, tail, key, f);
      InsertPermutes(x, tail, key);
      var rest := Insert(x, tail, key);
      forall i | 0 <= i < |rest| ensures f(rest[i]) != f(s[0]) {
        assert rest[i] in rest;
        if rest[i] != x {
          assert rest[i] in tail;
          var k :| 0 <= k < |tail| && tail[k] == rest[i];
          assert s[k + 1] == rest[i];
        }
      }
      ConsDistinct(s[0], rest, f);
    }
  }

  lemma TailDistinct<T, K>(s: seq<T>, f: T -> K)
    requires |s| > 0 && DistinctBy(s, f)
    ensures DistinctBy(s[1..], f)
  {
    var tail := s[1..];
    forall i, j | 0 <= i < j < |tail| ensures f(tail[i]) != f(tail[j]) {
      assert tail[i] == s[i + 1] && tail[j] == s[j + 1];
    }
  }

  lemma ConsDistinct<T, K>(y: T, s: seq<T>, f: T -> K)
    requires DistinctBy(s, f)
    requires forall i :: 0 <= i < |s| ==> f(s[i]) != f(y)
    ensures DistinctBy([y] + s, f)
  {
    var r := [y] + s;
    forall i, j | 0 <= i < j < |r| ensures f(r[i]) != f(r[j]) {
      assert r[j] == s[j - 1];
      if i > 0 {
        assert r[i] == s[i - 1];
      }
    }
  }
}

=== FILE: stats.dfy ===
/** The settlement figures computed over a list of tips: how many are settled,
    won and lost, the win rate, and the profit of staking each tip. The public
    statistics panel shows them for every tip; the operator's per-tier table
    computes the same figures over the tips of one tier. */
module Statistics {
  import opened Seqs
  import opened Tips

  /** Settled means anything but Pending, so a Void tip is settled. */
  predicate IsSettled(t: Tip) { t.status != Pending }
  predicate IsWon(t: Tip) { t.status == Won }
  predicate IsLost(t: Tip) { t.status == Lost }

  function SettledCount(tips: seq<Tip>): nat { |Filter(tips, IsSettled)| }
  function WonCount(tips: seq<Tip>): nat { |Filter(tips, IsWon)| }
  function LostCount(tips: seq<Tip>): nat { |Filter(tips, IsLost)| }

  /** Each count is zero exactly when no tip has its status: no settled tip
      means every tip is Pending. */
  lemma CountsVanish(tips: seq<Tip>)
    ensures SettledCount(tips) == 0 <==> forall i :: 0 <= i < |tips| ==> tips[i].status == Pending
    ensures WonCount(tips) == 0 <==> forall i :: 0 <= i < |tips| ==> tips[i].status != Won
    ensures LostCount(tips) == 0 <==> forall i :: 0 <= i < |tips| ==> tips[i].status != Lost
  {
    FilterMembers(tips, IsSettled);
    FilterMembers(tips, IsWon);
    FilterMembers(tips, IsLost);
    if forall i :: 0 <= i < |tips| ==> tips[i].status == Pending {
      FilterNone(tips, IsSettled);
    }
    if forall i :: 0 <= i < |tips| ==> tips[i].status != Won {
      FilterNone(tips, IsWon);
    }
    if forall i :: 0 <= i < |tips| ==> tips[i].status != Lost {
      FilterNone(tips, IsLost);
    }
  }

  /** Won and lost tips are settled and never both, so together they number
      at most the settled ones; the difference is the Void tips. */
  lemma {:induction false} WonLostWithinSettled(tips: seq<Tip>)
    ensures WonCount(tips) + LostCount(tips) <= SettledCount(tips) <= |tips|
  {
    if |tips| > 0 {
      var t := tips[0];
      WonLostWithinSettled(tips[1..]);
      assert Filter(tips, IsWon) == (if IsWon(t) then [t] else []) + Filter(tips[1..], IsWon);
      assert Filter(tips, IsLost) == (if IsLost(t) then [t] else []) + Filter(tips[1..], IsLost);
      assert Filter(tips, IsSettled) == (if IsSettled(t) then [t] else []) + Filter(tips[1..], IsSettled);
    }
  }

  /** The win rate in percent: won over settled, or 0 when nothing is settled.
      Void tips count as settled, so they lower the rate. */
  function WinRate(tips: seq<Tip>): (r: real)
    ensures 0.0 <= r <= 100.0
    ensures SettledCount(tips) == 0 ==> r == 0.0
    ensures SettledCount(tips) > 0 ==> r * (SettledCount(tips) as real) == (WonCount(tips) as real) * 100.0
  {
    WonLostWithinSettled(tips);
    var settled := SettledCount(tips);
    if settled > 0 then
      RatioAtMostOne(WonCount(tips) as real, settled as real);
      (WonCount(tips) as real / settled as real) * 100.0
    else 0.0
  }

  lemma RatioAtMostOne(w: real, s: real)
    requires 0.0 <= w <= s && s > 0.0
    ensures 0.0 <= w / s <= 1.0
  {
    var q := w / s;
    assert q * s == w;
  }

  /** What one tip adds to the running profit: its net gain when won, minus its
      stake when lost, nothing otherwise. */
  function ProfitStep(acc: real, t: Tip): real {
    if t.status == Won then acc + (t.odds - 1.0) * t.stake
    else if t.status == Lost then acc - t.stake
    else acc
  }

  /** The running profit, a left fold from 0 over the tips in order. */
  function Profit(tips: seq<Tip>): real
    decreases |tips|
  {
    if |tips| == 0 then 0.0
    else ProfitStep(Profit(tips[..|tips| - 1]), tips[|tips| - 1])
  }

  /** The net gain of a list of tips if all of them won: the sum of `(odds - 1) * stake`. */
  function Winnings(ts: seq<Tip>): real {
    if |ts| == 0 then 0.0 else (ts[0].odds - 1.0) * ts[0].stake + Winnings(ts[1..])
  }

  /** The sum of the stakes of a list of tips. */
  function StakeSum(ts: seq<Tip>): real {
    if |ts| == 0 then 0.0 else ts[0].stake + StakeSum(ts[1..])
  }

  lemma {:induction false} WinningsConcat(a: seq<Tip>, b: seq<Tip>)
    ensures Winnings(a + b) == Winnings(a) + Winnings(b)
  {
    if |a| == 0 {
      assert a + b == b;
    } else {
      assert (a + b)[1..] == a[1..] + b;
      WinningsConcat(a[1..], b);
    }
  }

  lemma {:induction false} StakeSumConcat(a: seq<Tip>, b: seq<Tip>)
    ensures StakeSum(a + b) == StakeSum(a) + StakeSum(b)
  {
    if |a| == 0 {
      assert a + b == b;
    } else {
      assert (a + b)[1..] == a[1..] + b;
      StakeSumConcat(a[1..], b);
    }
  }

  /** The profit is the winnings of the won tips less the stakes of the lost
      tips: whatever order the tips come in, pending and Void tips add nothing. */
  lemma {:induction false} ProfitIsWinningsLessLosses(tips: seq<Tip>)
    ensures Profit(tips) == Winnings(Filter(tips, IsWon)) - StakeSum(Filter(tips, IsLost))
    decreases |tips|
  {
    if |tips| > 0 {
      var a, t := tips[..|tips| - 1], tips[|tips| - 1];
      assert tips == a + [t];
      ProfitIsWinningsLessLosses(a);
      assert Profit(tips) == ProfitStep(Profit(a), t);
      StepOfOne(Profit(a), t);
      FilterConcat(a, [t], IsWon);
      FilterConcat(a, [t], IsLost);
      WinningsConcat(Filter(a, IsWon), Filter([t], IsWon));
      StakeSumConcat(Filter(a, IsLost), Filter([t], IsLost));
    }
  }

  lemma StepOfOne(acc: real, t: Tip)
    ensures ProfitStep(acc, t) == acc + Winnings(Filter([t], IsWon)) - StakeSum(Filter([t], IsLost))
  {
    FilterSingleton(t, IsWon);
    FilterSingleton(t, IsLost);
    assert Winnings([t]) == (t.odds - 1.0) * t.stake by { assert [t][1..] == []; }
    assert StakeSum([t]) == t.stake by { assert [t][1..] == []; }
  }

  /** The profit of two lists run one after the other adds up. */
  lemma ProfitConcat(a: seq<Tip>, b: seq<Tip>)
    ensures Profit(a + b) == Profit(a) + Profit(b)
  {
    ProfitIsWinningsLessLosses(a);
    ProfitIsWinningsLessLosses(b);
    ProfitIsWinningsLessLosses(a + b);
    FilterConcat(a, b, IsWon);
    FilterConcat(a, b, IsLost);
    WinningsConcat(Filter(a, IsWon), Filter(b, IsWon));
    StakeSumConcat(Filter(a, IsLost), Filter(b, IsLost));
  }

  /** The four figures of the statistics panel. */
  datatype Overview = Overview(winRate: real, won: nat, lost: nat, profit: real)

  function StatsOverview(tips: seq<Tip>): (o: Overview)
    ensures o.won == |Filter(tips, IsWon)| && o.lost == |Filter(tips, IsLost)|
    ensures o.won + o.lost <= SettledCount(tips)
    ensures 0.0 <= o.winRate <= 100.0
    ensures o.winRate == WinRate(tips)
    ensures SettledCount(tips) == 0 ==> o.winRate == 0.0
    ensures o.profit == Winnings(Filter(tips, IsWon)) - StakeSum(Filter(tips, IsLost))
  {
    WonLostWithinSettled(tips);
    ProfitIsWinningsLessLosses(tips);
    Overview(WinRate(tips), WonCount(tips), LostCount(tips), Profit(tips))
  }

  /** The panel's rate is its won count over the settled count, in percent. */
  lemma OverviewRate(tips: seq<Tip>)
    requires SettledCount(tips) > 0
    ensures var o := StatsOverview(tips);
            o.winRate * (SettledCount(tips) as real) == (o.won as real) * 100.0
  {
    var o := StatsOverview(tips);
    assert o.winRate == WinRate(tips) && o.won == WonCount(tips);
  }

  /** A tip that has not been settled yet changes none of the figures, wherever
      it sits in the list. */
  lemma PendingTipChangesNothing(a: seq<Tip>, b: seq<Tip>, t: Tip)
    requires t.status == Pending
    ensures StatsOverview(a + [t] + b) == StatsOverview(a + b)
  {
    FilterSkips(a, b, t, IsSettled);
    FilterSkips(a, b, t, IsWon);
    FilterSkips(a, b, t, IsLost);
    ProfitSkipsPending(a, b, t);
  }

  lemma FilterSkips(a: seq<Tip>, b: seq<Tip>, t: Tip, p: Tip -> bool)
    requires !p(t)
    ensures Filter(a + [t] + b, p) == Filter(a + b, p)
  {
    FilterConcat(a + [t], b, p);
    FilterConcat(a, [t], p);
    FilterConcat(a, b, p);
    FilterSingleton(t, p);
  }

  lemma ProfitSkipsPending(a: seq<Tip>, b: seq<Tip>, t: Tip)
    requires t.status == Pending
    ensures Profit(a + [t] + b) == Profit(a + b)
  {
    ProfitConcat(a + [t], b);
    ProfitConcat(a, [t]);
    ProfitConcat(a, b);
    assert Profit([t]) == 0.0 by { assert [t][..0] == []; }
  }

  /** Tips none of which is settled show a win rate of 0, no wins, no losses
      and no profit; the empty list is one such list. */
  lemma {:induction false} NothingSettledIsZero(tips: seq<Tip>)
    requires forall i :: 0 <= i < |tips| ==> tips[i].status == Pending
    ensures StatsOverview(tips) == Overview(0.0, 0, 0, 0.0)
  {
    FilterNone(tips, IsSettled);
    FilterNone(tips, IsWon);
    FilterNone(tips, IsLost);
  }

  /** With odds of at least 1 and non-negative stakes the loss never exceeds
      what was staked on settled tips: the profit is at least minus the
      settled stake. */
  lemma {:induction false} LossBoundedByStake(tips: seq<Tip>)
    requires forall i :: 0 <= i < |tips| ==> tips[i].odds >= 1.0 && tips[i].stake >= 0.0
    ensures Profit(tips) >= -StakeSum(Filter(tips, IsSettled))
    decreases |tips|
  {
    if |tips| > 0 {
      var a, t := tips[..|tips| - 1], tips[|tips| - 1];
      assert tips == a + [t];
      LossBoundedByStake(a);
      FilterConcat(a, [t], IsSettled);
      FilterSingleton(t, IsSettled);
      StakeSumConcat(Filter(a, IsSettled), Filter([t], IsSettled));
      assert StakeSum([t]) == t.stake by { assert [t][1..] == []; }
      assert (t.odds - 1.0) * t.stake >= 0.0;
    }
  }
}

=== FILE: text.dfy ===
/** String helpers with JavaScript semantics: `trim`, `split(" | ")`,
    `join(" | ")`, `includes` and `toLowerCase`, on strings as `seq<char>`. */
module Text {

  /** The leg separator the tip records use inside `pick` and composite `analysis`. */
  const Separator: string := " | "

  /** Code points JavaScript's `String.prototype.trim` removes: the WhiteSpace
      and LineTerminator productions of ECMAScript (section 12.2 and 12.3 of ECMA-262). */
  const WhitespaceCodes: set<int> :=
    {0x09, 0x0A, 0x0B, 0x0C, 0x0D, 0x20, 0xA0, 0x1680,
     0x2000, 0x2001, 0x2002, 0x2003, 0x2004, 0x2005, 0x2006, 0x2007, 0x2008, 0x2009, 0x200A,
     0x2028, 0x2029, 0x202F, 0x205F, 0x3000, 0xFEFF}

  predicate IsWhitespace(c: char) {
    (c as int) in WhitespaceCodes
  }

  predicate AllWhitespace(s: string) {
    forall i :: 0 <= i < |s| ==> IsWhitespace(s[i])
  }

  /** Neither begins nor ends with whitespace. */
  predicate IsTrimmed(s: string) {
    |s| == 0 || (!IsWhitespace(s[0]) && !IsWhitespace(s[|s| - 1]))
  }

  function TrimStart(s: string): (r: string)
    ensures |r| <= |s| && r == s[|s| - |r|..]
    ensures AllWhitespace(s[..|s| - |r|])
    ensures |r| == 0 || !IsWhitespace(r[0])
  {
    if |s| == 0 || !IsWhitespace(s[0]) then s
    else
      var rest := s[1..];
      var r := TrimStart(rest);
      assert rest[|rest| - |r|..] == s[|s| - |r|..];
      WhitespaceBefore(s, |s| - |r|);
      r
  }

  function TrimEnd(s: string): (r: string)
    ensures |r| <= |s| && r == s[..|r|]
    ensures AllWhitespace(s[|r|..])
    ensures |r| == 0 || !IsWhitespace(r[|r| - 1])
  {
    if |s| == 0 || !IsWhitespace(s[|s| - 1]) then s
    else
      var init := s[..|s| - 1];
      var r := TrimEnd(init);
      assert init[..|r|] == s[..|r|];
      WhitespaceAfter(s, |r|);
      r
  }

  /** A whitespace character followed by whitespace is whitespace. */
  lemma WhitespaceBefore(s: string, n: int)
    requires 1 <= n <= |s| && IsWhitespace(s[0]) && AllWhitespace(s[1..][..n - 1])
    ensures AllWhitespace(s[..n])
  {
    forall i | 1 <= i < n ensures IsWhitespace(s[..n][i]) {
      assert s[..n][i] == s[1..][..n - 1][i - 1];
    }
  }

  /** Whitespace followed by a whitespace character is whitespace. */
  lemma WhitespaceAfter(s: string, n: int)
    requires 0 <= n < |s| && IsWhitespace(s[|s| - 1]) && AllWhitespace(s[..|s| - 1][n..])
    ensures AllWhitespace(s[n..])
  {
    forall i | 0 <= i < |s| - 1 - n ensures IsWhitespace(s[n..][i]) {
      assert s[n..][i] == s[..|s| - 1][n..][i];
    }
  }

  /** `s.trim()`: `s` without its leading and trailing whitespace. */
  function Trim(s: string): (r: string)
    ensures IsTrimmed(r)
    ensures r == "" <==> AllWhitespace(s)
    ensures |r| <= |s|
  {
    TrimEmptyIffBlank(s);
    TrimEnd(TrimStart(s))
  }

  /** Trimming a trimmed string changes nothing. */
  lemma TrimTrimmed(s: string)
    requires IsTrimmed(s)
    ensures Trim(s) == s
  {
  }

  lemma TrimEmptyIffBlank(s: string)
    ensures TrimEnd(TrimStart(s)) == "" <==> AllWhitespace(s)
  {
    if AllWhitespace(s) {
      BlankTrimsToEmpty(s);
    } else {
      ContentSurvivesTrim(s);
    }
  }

  /** A blank string trims to nothing. */
  lemma BlankTrimsToEmpty(s: string)
    requires AllWhitespace(s)
    ensures TrimStart(s) == ""
  {
  }

  /** A string with a non-whitespace character keeps it through trimming. */
  lemma ContentSurvivesTrim(s: string)
    requires !AllWhitespace(s)
    ensures TrimEnd(TrimStart(s)) != ""
  {
  }

  /** `sub` occurs in `s` starting at index `i`. */
  predicate OccursAt(s: string, sub: string, i: int) {
    0 <= i && i + |sub| <= |s| && s[i..i + |sub|] == sub
  }

  /** `s.includes(sub)`. */
  predicate Contains(s: string, sub: string) {
    exists i :: 0 <= i <= |s| - |sub| && OccursAt(s, sub, i)
  }

  /** `s.split(" | ")`: cut `s` at every occurrence of the separator, scanning
      left to right with non-overlapping matches. */
  function Split(s: string): (parts: seq<string>)
    ensures |parts| >= 1
  {
    if |s| < |Separator| then [s]
    else if s[..|Separator|] == Separator then [""] + Split(s[|Separator|..])
    else
      var rest := Split(s[1..]);
      [[s[0]] + rest[0]] + rest[1..]
  }

  /** `parts.join(" | ")`. */
  function Join(parts: seq<string>): string {
    if |parts| == 0 then ""
    else if |parts| == 1 then parts[0]
    else parts[0] + Separator + Join(parts[1..])
  }

  /** Joining a part in front of a non-empty list puts one separator after it. */
  lemma JoinCons(h: string, rest: seq<string>)
    requires |rest| >= 1
    ensures Join([h] + rest) == h + Separator + Join(rest)
  {
    assert ([h] + rest)[1..] == rest;
  }

  /** Cutting at the separator and gluing the pieces back with it restores the string. */
  lemma {:induction false} JoinSplit(s: string)
    ensures Join(Split(s)) == s
  {
    if |s| < |Separator| {
    } else if s[..|Separator|] == Separator {
      var tail := s[|Separator|..];
      JoinSplit(tail);
      JoinCons("", Split(tail));
      assert s == Separator + tail;
    } else {
      JoinSplit(s[1..]);
      JoinSplitStep(s);
    }
  }

  /** The step of `JoinSplit` where the first character joins the first piece. */
  lemma JoinSplitStep(s: string)
    requires |s| >= |Separator| && s[..|Separator|] != Separator
    requires Join(Split(s[1..])) == s[1..]
    ensures Join(Split(s)) == s
  {
    var rest := Split(s[1..]);
    assert Split(s) == [[s[0]] + rest[0]] + rest[1..];
    JoinExtendFirst(s[0], rest);
    assert s == [s[0]] + s[1..];
  }

  /** Putting a character in front of the first part puts it in front of the join. */
  lemma JoinExtendFirst(c: char, parts: seq<string>)
    requires |parts| >= 1
    ensures Join([[c] + parts[0]] + parts[1..]) == [c] + Join(parts)
  {
    var head := [c] + parts[0];
    var tail := parts[1..];
    if |parts| == 1 {
      assert [head] + tail == [head];
    } else {
      JoinCons(head, tail);
      var j := Join(tail);
      assert Join(parts) == parts[0] + Separator + j;
      ConsAssoc(c, parts[0], Separator, j);
    }
  }

  lemma ConsAssoc<T>(c: T, a: seq<T>, b: seq<T>, d: seq<T>)
    ensures ([c] + a) + b + d == [c] + (a + b + d)
  {
  }

  /** No piece of a split contains the separator. */
  lemma {:induction false} SplitPiecesLackSeparator(s: string)
    ensures forall k :: 0 <= k < |Split(s)| ==> !Contains(Split(s)[k], Separator)
  {
    var parts := Split(s);
    if |s| < |Separator| {
      ShortLacksSeparator(s);
    } else if s[..|Separator|] == Separator {
      SplitPiecesLackSeparator(s[|Separator|..]);
      forall k | 0 <= k < |parts| ensures !Contains(parts[k], Separator) {
        if k > 0 {
          assert parts[k] == Split(s[|Separator|..])[k - 1];
        } else {
          ShortLacksSeparator(parts[0]);
        }
      }
    } else {
      var rest := Split(s[1..]);
      SplitPiecesLackSeparator(s[1..]);
      forall k | 0 <= k < |parts| ensures !Contains(parts[k], Separator) {
        if k > 0 {
          assert parts[k] == rest[k];
        } else {
          FirstPieceLacksSeparator(s);
        }
      }
    }
  }

  lemma ShortLacksSeparator(s: string)
    requires |s| < |Separator|
    ensures !Contains(s, Separator)
  {
  }

  /** Extending a separator-free first piece by a character that does not start
      a separator keeps it separator-free. */
  lemma FirstPieceLacksSeparator(s: string)
    requires |s| >= |Separator| && s[..|Separator|] != Separator
    requires !Contains(Split(s[1..])[0], Separator)
    ensures !Contains(Split(s)[0], Separator)
  {
    var rest := Split(s[1..]);
    assert Split(s)[0] == [s[0]] + rest[0];
    PieceStart(s);
    ConsLacksSeparator(s[0], rest[0], s[..|Separator|]);
  }

  /** The first piece of a split starts like the string itself. */
  lemma PieceStart(s: string)
    requires |s| >= |Separator|
    ensures |Split(s)[0]| >= |Separator| ==> Split(s)[0][..|Separator|] == s[..|Separator|]
  {
    PieceIsPrefix(s);
  }

  /** `[c] + p` has no separator when `p` has none and its first three
      characters (when it has them) are not the separator. */
  lemma ConsLacksSeparator(c: char, p: string, start: string)
    requires !Contains(p, Separator)
    requires |[c] + p| >= |Separator| ==> ([c] + p)[..|Separator|] == start
    requires start != Separator
    ensures !Contains([c] + p, Separator)
  {
    var head := [c] + p;
    forall i | 0 <= i <= |head| - |Separator| ensures !OccursAt(head, Separator, i) {
      if i > 0 {
        assert head[i..i + |Separator|] == p[i - 1..i - 1 + |Separator|];
        assert !OccursAt(p, Separator, i - 1);
      }
    }
  }

  /** The first piece of a split is a prefix of the string. */
  lemma {:induction false} PieceIsPrefix(s: string)
    ensures |Split(s)[0]| <= |s| && Split(s)[0] == s[..|Split(s)[0]|]
  {
    if |s| >= |Separator| && s[..|Separator|] != Separator {
      PieceIsPrefix(s[1..]);
    }
  }

  /** A string without the separator splits into itself alone. */
  lemma {:induction false} SplitWithoutSeparator(s: string)
    requires !Contains(s, Separator)
    ensures Split(s) == [s]
  {
    if |s| >= |Separator| {
      assert !OccursAt(s, Separator, 0);
      forall i | 0 <= i <= |s[1..]| - |Separator| ensures !OccursAt(s[1..], Separator, i) {
        assert !OccursAt(s, Separator, i + 1);
        assert s[1..][i..i + |Separator|] == s[i + 1..i + 1 + |Separator|];
      }
      SplitWithoutSeparator(s[1..]);
      assert s == [s[0]] + s[1..];
    }
  }

  /** A string without a bar splits into itself alone. */
  lemma {:induction false} SplitWithoutBar(s: string)
    requires '|' !in s
    ensures Split(s) == [s]
  {
    if |s| >= |Separator| {
      assert s[..|Separator|] != Separator by {
        assert s[1] != '|';
      }
      assert '|' !in s[1..] by {
        forall k | 0 <= k < |s| - 1 ensures s[1..][k] != '|' {
          assert s[1..][k] == s[k + 1];
        }
      }
      SplitWithoutBar(s[1..]);
      assert s == [s[0]] + s[1..];
    }
  }

  /** A bar-free piece followed by the separator is cut off as the first part. */
  lemma {:induction false} SplitAfterPiece(a: string, r: string)
    requires '|' !in a
    ensures Split(a + Separator + r) == [a] + Split(r)
  {
    var s := a + Separator + r;
    if |a| == 0 {
      assert s[..|Separator|] == Separator && s[|Separator|..] == r;
    } else {
      assert s[1] != '|' by {
        if |a| > 1 { assert s[1] == a[1]; } else { assert s[1] == ' '; }
      }
      assert '|' !in a[1..] by {
        forall k | 0 <= k < |a| - 1 ensures a[1..][k] != '|' {
          assert a[1..][k] == a[k + 1];
        }
      }
      SplitAfterPiece(a[1..], r);
      assert s[1..] == a[1..] + Separator + r;
      SplitCons(s);
      assert a == [a[0]] + a[1..];
    }
  }

  /** A string whose second character is not a bar does not start with the
      separator, so its first character joins the first piece of the rest. */
  lemma SplitCons(s: string)
    requires |s| >= |Separator| && s[1] != '|'
    ensures Split(s) == [[s[0]] + Split(s[1..])[0]] + Split(s[1..])[1..]
  {
    assert s[..|Separator|][1] == s[1];
  }

  /** The converse round trip: joining bar-free parts and cutting the result at
      the separator gives the parts back. */
  lemma {:induction false} SplitJoin(parts: seq<string>)
    requires |parts| >= 1
    requires forall i :: 0 <= i < |parts| ==> '|' !in parts[i]
    ensures Split(Join(parts)) == parts
  {
    if |parts| == 1 {
      SplitWithoutBar(parts[0]);
    } else {
      SplitJoin(parts[1..]);
      SplitAfterPiece(parts[0], Join(parts[1..]));
      assert parts == [parts[0]] + parts[1..];
    }
  }

  /** Joining two non-empty lists of parts puts one separator between their joins. */
  lemma {:induction false} JoinConcat(ps: seq<string>, qs: seq<string>)
    requires |ps| >= 1 && |qs| >= 1
    ensures Join(ps + qs) == Join(ps) + Separator + Join(qs)
  {
    if |ps| == 1 {
      assert (ps + qs)[1..] == qs;
    } else {
      JoinConcat(ps[1..], qs);
      assert (ps + qs)[1..] == ps[1..] + qs;
    }
  }

  /** Joining a non-empty list whose first part is non-empty gives a non-empty string. */
  lemma JoinNonEmpty(parts: seq<string>)
    requires |parts| > 0 && parts[0] != ""
    ensures Join(parts) != ""
  {
    if |parts| > 1 {
      assert |Join(parts)| >= |parts[0]|;
    }
  }

  /** `String.prototype.toLowerCase` on the letters this model covers: ASCII,
      Latin-1 and the Polish letters outside Latin-1. */
  function LowerChar(c: char): char {
    var n := c as int;
    if 0x41 <= n <= 0x5A || (0xC0 <= n <= 0xDE && n != 0xD7) then (n + 0x20) as char
    else if n in {0x0104, 0x0106, 0x0118, 0x0141, 0x0143, 0x015A, 0x0179, 0x017B} then (n + 1) as char
    else c
  }

  function Lower(s: string): (r: string)
    ensures |r| == |s|
    ensures forall i :: 0 <= i < |s| ==> r[i] == LowerChar(s[i])
  {
    if |s| == 0 then "" else [LowerChar(s[0])] + Lower(s[1..])
  }

  /** Decimal rendering of an integer. */
  /** The decimal digits of `n`, without sign or leading zeros. */
  function NatToString(n: nat): (s: string)
    ensures |s| >= 1 && (|s| == 1 <==> n < 10)
    ensures forall i :: 0 <= i < |s| ==> '0' <= s[i] <= '9'
  {
    if n < 10 then [Digit(n)] else NatToString(n / 10) + [Digit(n % 10)]
  }

  function Digit(d: nat): (c: char)
    requires d < 10
    ensures '0' <= c <= '9'
  {
    (48 + d) as char
  }

  /** Different numbers have different decimal renderings. */
  lemma {:induction false} NatToStringInjective(a: nat, b: nat)
    requires NatToString(a) == NatToString(b)
    ensures a == b
  {
    var s := NatToString(a);
    if a >= 10 {
      assert b >= 10;
      assert NatToString(a / 10) == s[..|s| - 1] == NatToString(b / 10);
      NatToStringInjective(a / 10, b / 10);
      assert Digit(a % 10) == s[|s| - 1] == Digit(b % 10);
    } else {
      assert b < 10;
      assert Digit(a) == s[0] == Digit(b);
    }
  }
}

=== FILE: tiers.dfy ===
/** The fixed catalogue of pricing tiers, their order and their prices. Tiers
    travel through the system as their display labels, so a tier is a string
    and a label outside the catalogue is representable. */
module TierCatalog {

  /** The tier labels, cheapest first. */
  const PricingTiers: seq<string> := ["Free", "10 PLN", "20 PLN", "40 PLN", "75 PLN", "100 PLN"]

  /** The tiers an operator can grant: every tier except Free. */
  const GrantableTiers: seq<string> := ["10 PLN", "20 PLN", "40 PLN", "75 PLN", "100 PLN"]

  const FreeTier: string := "Free"

  /** The grantable tiers are the catalogue without Free, in the same order. */
  lemma GrantableArePaid()
    ensures GrantableTiers == PricingTiers[1..] && FreeTier !in GrantableTiers
  {
  }

  /** `xs.indexOf(x)`: the first position of `x`, or -1 when it is absent. */
  function IndexOf(xs: seq<string>, x: string): (r: int)
    ensures -1 <= r < |xs|
    ensures r == -1 <==> x !in xs
    ensures 0 <= r ==> xs[r] == x && forall j :: 0 <= j < r ==> xs[j] != x
  {
    if |xs| == 0 then -1
    else if xs[0] == x then 0
    else
      var k := IndexOf(xs[1..], x);
      if k == -1 then -1 else k + 1
  }

  /** A tier's position in the catalogue; an unknown label ranks -1, below Free. */
  function Rank(tier: string): (r: int)
    ensures -1 <= r < |PricingTiers|
    ensures r == -1 <==> tier !in PricingTiers
    ensures 0 <= r ==> PricingTiers[r] == tier
  {
    IndexOf(PricingTiers, tier)
  }

  /** The catalogue labels are pairwise distinct, so each known tier has its own rank. */
  lemma RankOfCatalogue(i: int)
    requires 0 <= i < |PricingTiers|
    ensures Rank(PricingTiers[i]) == i
  {
  }

  /** Unknown labels rank below every catalogue tier, Free included. */
  lemma UnknownRanksLowest(unknown: string, tier: string)
    requires unknown !in PricingTiers && tier in PricingTiers
    ensures Rank(unknown) < Rank(FreeTier) <= Rank(tier)
  {
  }

  /** The price table of a tip card, listed in catalogue order: `TierPrices[i]`
      is the price of `PricingTiers[i]`. */
  const TierPrices: seq<nat> := [0, 10, 20, 40, 75, 100]

  /** `tierPrices[tier] || 0`: the table's price, or 0 for a label it lacks. */
  function Price(tier: string): (p: nat)
    ensures tier !in PricingTiers ==> p == 0
    ensures p == 0 <==> tier == FreeTier || tier !in PricingTiers
    ensures tier in PricingTiers && tier != FreeTier ==> 10 <= p <= 100
  {
    var r := Rank(tier);
    if r < 0 then 0 else TierPrices[r]
  }

  /** The price of each catalogue tier, in złoty. */
  lemma PriceTable()
    ensures Price("Free") == 0 && Price("10 PLN") == 10 && Price("20 PLN") == 20
    ensures Price("40 PLN") == 40 && Price("75 PLN") == 75 && Price("100 PLN") == 100
  {
    RankOfCatalogue(0);
    RankOfCatalogue(1);
    RankOfCatalogue(2);
    RankOfCatalogue(3);
    RankOfCatalogue(4);
    RankOfCatalogue(5);
  }

  /** Among catalogue tiers the price strictly increases with the rank. */
  lemma PriceFollowsRank(a: string, b: string)
    requires a in PricingTiers && b in PricingTiers
    ensures Rank(a) < Rank(b) <==> Price(a) < Price(b)
  {
    var i, j := Rank(a), Rank(b);
    assert Price(a) == TierPrices[i] && Price(b) == TierPrices[j];
    PricesIncrease();
  }

  lemma PricesIncrease()
    ensures |TierPrices| == |PricingTiers|
    ensures forall i, j :: 0 <= i < j < |TierPrices| ==> TierPrices[i] < TierPrices[j]
  {
  }
}

=== FILE: tips.dfy ===
/** The tip record as stored in the `tips` table. */
module Tips {
  import opened Wrappers

  datatype Status = Pending | Won | Lost | Void

  /** One row of the `tips` table. Timestamps are milliseconds since the epoch;
      odds and stake are exact reals; `pricingTier` is the tier label. */
  datatype Tip = Tip(
    id: string,
    createdAt: int,
    matchDate: int,
    homeTeam: string,
    awayTeam: string,
    league: string,
    pick: string,
    odds: real,
    stake: real,
    pricingTier: string,
    status: Status,
    analysis: Option<string>,
    isBetBuilder: bool,
    proofImageUrl: Option<string>,
    settledAt: Option<int>)

  /** The lifecycle invariant: a settlement time is recorded exactly when the tip is settled. */
  predicate SettlementConsistent(t: Tip) {
    t.settledAt.Some? <==> t.status != Pending
  }

  predicate AllConsistent(tips: seq<Tip>) {
    forall i :: 0 <= i < |tips| ==> SettlementConsistent(tips[i])
  }

  /** A JavaScript truthiness test on an optional string: present and non-empty. */
  predicate Present(s: Option<string>) {
    s.Some? && s.value != ""
  }

  /** `text || null`: an empty text field is stored as no text, any other as written. */
  function EmptyToNone(s: string): (r: Option<string>)
    ensures r.None? <==> s == ""
    ensures r.Some? ==> r.value == s
  {
    if s == "" then None else Some(s)
  }

  /** Showing a stored text in a field (`?? ''`) and storing the field again
      keeps a present text and turns an empty one into none. */
  lemma EmptyToNoneRoundTrip(stored: Option<string>)
    ensures EmptyToNone(stored.GetOr("")) == (if Present(stored) then stored else None)
    ensures Present(stored) <==> EmptyToNone(stored.GetOr("")).Some?
  {
  }
}

=== FILE: wrappers.dfy ===
/** Optional values and results, standing in for the source's `T | null`
    fields and for the early returns of its event handlers. */
module Wrappers {

  datatype Option<+T> = None | Some(value: T) {

    /** The value held, or `default` when there is none. */
    function GetOr(default: T): T {
      match this
      case Some(v) => v
      case None => default
    }
  }

  datatype Result<+R, +E> = Success(value: R) | Failure(error: E)
}
